=== FILE: README.md ===
# Bulletin board access control, modelled in Dafny

This project models the request-decision core of an Express/MySQL community
bulletin board, in which users register, sign in, post categorised help
requests, comment, and administrators moderate. The model covers:

- the two authentication middlewares (`verifyToken`, `requireRole`);
- the account service (`registerValidator`, `loginValidator`, `register`,
  `login`);
- the post, comment, user and category handlers, as decision functions over
  an in-memory store;
- the listing query builder of `getPosts`;
- the middleware chains each route file registers;
- the upload filter and the stored-file naming.

Each handler maps a request and a store to a response (status code and JSON
body) and a new store. The store holds four tables, `users`, `posts`,
`comments` and `categories`. A table is a sequence of slots: id `k` lives in
slot `k - 1`, INSERT appends (AUTO_INCREMENT from 1), and DELETE empties the
slot.

The handlers depend on a few things outside the store, which are passed in as
parameters:

- bcrypt's key derivation (`Password.Kdf`);
- the MAC of the token signature (`Token.Key`);
- express-validator's `isEmail` and `normalizeEmail` (`AuthController.EmailRules`);
- the salt drawn for a request, the clock, and the database's evaluation of
  the listing query.

No property depends on which functions are supplied.

Tokens use a concrete dotted layout, `id.role.iat.exp.sig`, which is enough
to prove that a token issued by `register` or `login` verifies to the claims
it was issued with.

The model states what the code does, including three behaviours that differ
from what the source's own comments announce:

- `deletePost` is commented "Delete post (admin or owner)" and
  `deleteComment` "Delete a comment (owner or admin)"
  (`src/controller/postController.js:210`,
  `src/controller/commentController.js:65`). Their checks read
  `req.user.isAdmin`, but tokens carry only `{id, role}` and the `iat` and
  `exp` jsonwebtoken adds. So an administrator cannot delete another user's
  post or comment and gets 403 (`Scenarios.AdminCannotDeleteOthersPost`).
- `updatePostStatus` is commented "Update post status (admin only)"
  (`src/controller/postController.js:183`), but its route has only a token
  guard, so every signed-in user can moderate any post
  (`Scenarios.AnyUserSetsPostStatus`).
- The register validator's "Allow role to be specified"
  (`src/controller/authController.js:12`) lets a caller register as
  `admin` (`AuthController.RegisterAcceptsSelfAssignedAdmin`,
  `Scenarios.SelfRegisteredAdminPasses`).

Modules, one per source file or component:

- `Common`, `Strings`, `Tables`: shared vocabulary, the JavaScript string
  operations the handlers use, and the tables.
- `Password`, `Token`: bcrypt and jsonwebtoken.
- `Schema`, `Http`: the rows and the store; the responses.
- `AuthMiddleware`, `AuthController`: the middlewares; the account service.
- `PostController`, `CommentController`, `UserController`,
  `CategoryController`: the resource handlers.
- `Uploads`, `Routes`: multer's filter and file name; the route chains.
- `Scenarios`: end-to-end consequences across tokens, chains and handlers.

## Model

| member | source | states |
|---|---|---|
| Strings.Split | src/middlewares/authMiddleware.js:5 | `split` on one character yields at least one piece, and no piece contains the separator |
| Strings.JoinSplit | src/routes/postRoutes.js:13 | splitting a string on a character and joining the pieces back restores it |
| Strings.SplitJoin | src/controller/authController.js:59-63 | joining separator-free pieces and splitting again gives the same pieces back |
| Strings.SplitBeforeLast | src/routes/postRoutes.js:13-14 | text ending in a separator and a separator-free tail splits into the split of the head followed by that tail |
| Strings.TrimEmptyIffBlank | src/controller/authController.js:9 | `trim()` leaves the empty string exactly when every character is white space |
| Strings.TrimStart | src/controller/authController.js:9 | leading trim removes only white space and leaves a suffix that does not start with white space |
| Strings.TrimEnd | src/controller/authController.js:9 | trailing trim removes only white space and leaves a prefix that does not end with white space |
| Strings.ParseNatToString | src/controller/authController.js:59-63 | reading back the decimal rendering of a number gives the number |
| Strings.CountConcat | src/controller/postController.js:113-114 | occurrences of a character in a concatenation add up |
| Strings.LexLeTotal | src/controller/categoryController.js:19 | any two names are ordered one way or the other |
| Strings.LexLeTransitive | src/controller/categoryController.js:19 | the name order is transitive |
| Tables.NextId | src/controller/authController.js:48-51 | the id an INSERT receives is positive, unused, and larger than every id in use |
| Tables.Insert | src/controller/authController.js:48-51 | INSERT adds exactly one row under the fresh id and leaves every other id as it was |
| Tables.Update | src/controller/userController.js:87 | UPDATE by id replaces that row and leaves every other row as it was |
| Tables.Delete | src/controller/userController.js:64 | DELETE by id leaves no row under that id and every other row as it was |
| Tables.FindFirst | src/controller/authController.js:79-82 | `rows[0]` of a filtered SELECT is a matching row (the lowest matching id, in the model's primary-key order), and there is none exactly when nothing matches |
| Tables.Select | src/controller/userController.js:49-51 | a filtered SELECT returns exactly the matching ids, each once (in the model's primary-key order) |
| Tables.SelectNewestFirst | src/controller/commentController.js:49-56 | a filtered SELECT ordered newest first returns exactly the matching ids, in descending order |
| Password.Compare | src/controller/authController.js:83 | `bcrypt.compare` re-derives the key with the digest's own cost and salt; with `Password.Hash` it accepts the password that was hashed |
| Password.Hash | src/controller/authController.js:45 | the stored digest records cost 10 and its salt, and the hashed password compares equal to it |
| Schema.ParseRoleIffName | src/controller/userController.js:82 | a string is accepted as a role exactly when it is the name of that role |
| Schema.ParseStatusIffName | src/controller/postController.js:189-190 | a string is accepted as a status exactly when it is the name of that status |
| Token.Verify | src/middlewares/authMiddleware.js:10-11 | a token is accepted (or reported expired) only when its last field is the signature of its four claim fields; it is accepted exactly when the clock is before its `exp`; the claim set is exactly those fields and never carries `isAdmin` |
| Token.VerifySigned | src/middlewares/authMiddleware.js:10-11 | every well-formed claim layout, once signed with the key, is accepted to exactly its fields until its `exp` and is expired from then on |
| Token.Sign | src/controller/authController.js:59-63 | an issued token splits on `.` into exactly its claim fields `id.role.iat.exp` followed by their signature, with `exp` seven days after `iat` |
| Token.SignVerify | src/controller/authController.js:59-63 | a token issued for (id, role) at time `iat` verifies to exactly `{id, role, iat, exp}` with `exp` seven days after `iat`, before `exp`, and is expired from then on |
| Token.SignedTokenIsOneWord | src/controller/authController.js:59-63 | an issued token is non-empty and contains no space, so it survives the `Bearer ` header |
| AuthMiddleware.BearerToken | src/middlewares/authMiddleware.js:4-5 | a token is read only from a header starting with the exact `Bearer `, and it is non-empty and space-free |
| AuthMiddleware.BearerTokenShape | src/middlewares/authMiddleware.js:4-5 | a token read from a header is the text after `Bearer ` up to the next space |
| AuthMiddleware.BearerTokenAccepts | src/middlewares/authMiddleware.js:4-5 | every `Bearer <token>` or `Bearer <token> <more>` header yields that token |
| AuthMiddleware.VerifyToken | src/middlewares/authMiddleware.js:3-17 | no token gives 401 "No token provided"; a token that fails verification gives 401 "Invalid or expired token"; otherwise the request passes with exactly the decoded claims |
| AuthMiddleware.RequireRole | src/middlewares/authMiddleware.js:19-23 | no principal gives 401 before any role comparison; a role that is not exactly the required one gives 403; otherwise the request passes |
| Strings.PresentationLength | src/controller/authController.js:11 | `isLength` counts code points but not the variation selectors U+FE0E and U+FE0F, so a string without them measures its full length |
| Strings.PresentationLengthAppend | src/controller/authController.js:11 | appending a character adds one to the `isLength` measure unless it is a variation selector |
| AuthController.RegisterErrors | src/controller/authController.js:8-13 | the validator reports no field exactly when the username is non-blank, the email valid, the password at least six characters by `isLength`'s count, and the role, if given, `user` or `admin` |
| AuthController.LoginErrors | src/controller/authController.js:15-18 | the login validator reports no field exactly when the email is valid and the password non-empty |
| AuthController.EmailLookup | src/controller/authController.js:38-39 | the email query finds nothing exactly when no account has that email |
| AuthController.UsernameLookup | src/controller/authController.js:41-42 | the username query finds nothing exactly when no account has that username |
| AuthController.Register | src/controller/authController.js:21-70 | invalid input gives 400, a taken email 409, then a taken username 409, all without a store change; otherwise exactly one account is inserted with a digest that accepts the password, and the 201 token verifies to the new id and role |
| AuthController.Login | src/controller/authController.js:72-97 | invalid input gives 400; an unknown email gives "Invalid credentials"; a 200 answers with a token for an account with that email whose digest accepts the password |
| AuthController.LoginOfKnownUser | src/controller/authController.js:79-90 | with unique emails, a login for a stored account succeeds exactly when the password matches, and the token verifies to that account's id and stored role |
| AuthController.LoginFailuresIndistinguishable | src/controller/authController.js:79-84 | an unknown email and a wrong password receive the identical response |
| AuthController.RegisterKeepsAccountsUnique | src/controller/authController.js:37-51 | registration preserves uniqueness of emails and usernames |
| AuthController.RegisterDefaultsToUser | src/controller/authController.js:29-51 | without a role field the account and its token carry `user` |
| AuthController.RegisterAcceptsSelfAssignedAdmin | src/controller/authController.js:29-51 | a caller-supplied `admin` is stored and carried in the token |
| AuthController.EmailConflictWins | src/controller/authController.js:38-42 | when both email and username collide, the email conflict is reported |
| AuthController.RegisterThenLogin | src/controller/authController.js:21-97 | after a registration, a later login with the stored email and the same password succeeds with a token for the new account |
| PostController.MediaOf | src/controller/postController.js:14 | `images` holds the image exactly when it is truthy; `audio` is always empty |
| PostController.CategoryName | src/controller/postController.js:7-10 | the LEFT JOIN yields a category name exactly when the category row exists, and then it is that row's name |
| PostController.JoinPost | src/controller/postController.js:6-13 | the joined row exists exactly when the post and its author exist, and carries the post with its author's username and email and its category's name, or null |
| PostController.FindPostById | src/controller/postController.js:5-15 | the helper returns the joined row with its media object, or nothing when the join is empty |
| PostController.CreatePost | src/controller/postController.js:27-70 | a missing title, content or category gives 400, and an unknown category name gives 400 "Invalid category", both without an insert; otherwise one pending post of the principal is inserted, with the upload path or null and the address or null, answered 201 with the created post echoed: the new id, the principal, title, content, image path, the found category id and `pending` |
| PostController.SingleParam | src/controller/postController.js:90-105 | the status, category and address conditions each end in one placeholder and bind exactly one parameter |
| PostController.SearchLike | src/controller/postController.js:109-110 | the search condition has three placeholders and binds the pattern `%term%` three times, once each for title, content and author name |
| PostController.StatusConditions | src/controller/postController.js:88-96 | no status filters on `approved`, `all` adds no status condition, and any other value filters on itself |
| PostController.Conditions | src/controller/postController.js:85-111 | every condition the filters add has as many placeholders as parameters |
| PostController.JoinedPlaceholders | src/controller/postController.js:113-114 | conditions joined with ` AND ` hold as many placeholders as all their parameters together |
| PostController.BuildQuery | src/controller/postController.js:113-115 | the WHERE clause holds exactly as many `?` as there are bound parameters, and is empty exactly when there are no conditions |
| PostController.BuildQueryParams | src/controller/postController.js:88-111 | the parameters are the status (or `approved`, or none for `all`), then the category, then the address pattern, then three copies of the search pattern |
| PostController.ParamsConcat | src/controller/postController.js:86-111 | the parameters of concatenated conditions are the concatenated parameters |
| PostController.GetPosts | src/controller/postController.js:119-125 | each row the query returns is answered, in order, with its media object |
| PostController.GetPostById | src/controller/postController.js:258-280 | the joined row is answered with 200 exactly when it exists, otherwise 404 "Post not found" |
| PostController.GetMyPosts | src/controller/postController.js:238-256 | the listing holds exactly the principal's posts, newest first, each row carrying that post's title, content and address and its category's name |
| PostController.Edited | src/controller/postController.js:152-173 | the SET list replaces each truthy field among title, content and address and keeps every other column; with no truthy field the post is unchanged |
| PostController.UpdatePost | src/controller/postController.js:133-180 | a missing post gives 404, then a non-owner 403, then no truthy field 400, all without a change; the owner with at least one truthy field always gets 200 "Post updated", and then only that post changes, and only in its truthy fields |
| PostController.UpdatePostStatus | src/controller/postController.js:184-208 | a status outside the six gives 400 and a missing post 404, without a change; otherwise only the post's status changes and the answer is the post re-read after the update, showing the new status; no principal is consulted |
| PostController.DeletePost | src/controller/postController.js:211-235 | a missing post gives 404; the delete happens exactly when the principal owns the post or carries a truthy `isAdmin`, otherwise 403 without a change |
| CommentController.FindCommentById | src/controller/commentController.js:4-13 | the joined comment exists exactly when the comment and its author exist, and carries the author's username |
| CommentController.AddComment | src/controller/commentController.js:22-42 | empty content gives 400 before any lookup, and a missing post gives 404, both without an insert; otherwise one comment by the principal on that post is inserted and answered 201 |
| CommentController.GetComments | src/controller/commentController.js:45-63 | the listing holds exactly the post's comments whose author exists, newest first |
| CommentController.DeleteComment | src/controller/commentController.js:66-83 | a missing comment gives 404; the delete happens exactly when the principal owns the comment or carries a truthy `isAdmin`, otherwise 403; a delete removes exactly that comment |
| CommentController.AddedCommentIsListed | src/controller/commentController.js:31-58 | a comment added by an existing user appears in the post's listing as the add answered it |
| UserController.View | src/controller/userController.js:9 | the projection keeps every column except the password |
| UserController.GetProfile | src/controller/userController.js:4-22 | the principal's own row without the password, or 404 "User not found" |
| UserController.UpdateProfile | src/controller/userController.js:25-44 | full name, phone and address of the principal's row are set, absent ones to NULL, and nothing else changes; a missing row gives 404 |
| UserController.GetAllUsers | src/controller/userController.js:47-57 | the listing holds every user exactly once, without passwords (in the model's primary-key order) |
| UserController.DeleteUserAdmin | src/controller/userController.js:60-75 | a missing user gives 404; otherwise exactly that user is removed |
| UserController.ChangeUserRole | src/controller/userController.js:78-98 | a role outside `user`/`admin` gives 400 before the store is touched, and a missing user gives 404; otherwise only that user's role changes |
| CategoryController.InsertByName | src/controller/categoryController.js:19 | inserting into a name-ordered list keeps it ordered and adds exactly that row |
| CategoryController.SortByName | src/controller/categoryController.js:19 | the sorted rows are the same rows, ordered by name |
| CategoryController.CreateCategory | src/controller/categoryController.js:4-14 | an empty name gives 400 without an insert; otherwise one category is inserted and answered 201 with its id and name |
| CategoryController.AllRows | src/controller/categoryController.js:19 | the listing draws on every category row exactly as stored, each once, in increasing id order |
| CategoryController.GetAllCategories | src/controller/categoryController.js:17-24 | the listing holds every category exactly once, ordered by name, as a permutation of the rows |
| CategoryController.UpdateCategory | src/controller/categoryController.js:27-40 | a missing id gives 404; otherwise only that row's name changes, to the unvalidated name given |
| CategoryController.DeleteCategory | src/controller/categoryController.js:43-55 | a missing id gives 404; otherwise exactly that row is removed |
| Uploads.FileFilter | src/routes/postRoutes.js:19-25 | multer accepts a file when its MIME type starts with `image/`; `Uploads.FileFilterIff` states the exact set |
| Uploads.FileFilterIff | src/routes/postRoutes.js:19-25 | a file is accepted exactly when its MIME type is `image/` followed by anything |
| Uploads.Extension | src/routes/postRoutes.js:13 | the extension is dot-free and ends the name; it is the whole name when there is no dot, and otherwise follows the last dot |
| Uploads.ExtensionAfterDot | src/routes/postRoutes.js:13 | any name ending in `.ext` has extension `ext` |
| Uploads.StoredFilename | src/routes/postRoutes.js:12-15 | the stored name starts with `post-` and keeps the original's extension |
| Routes.Chain | src/routes/adminRoutes.js:8-14 | every registered chain is empty or starts with `verifyToken`, and its only other guard is `requireRole('admin')`; the chains are those of postRoutes.js:29-35, adminRoutes.js:8-14, categoryRoutes.js:7-12, commentRoutes.js:9-11 and userRoutes.js:7-13 |
| Routes.ChainFollowsPolicy | src/routes/postRoutes.js:29-35 | the registered chains are none for public reads, a token check for signed-in routes, and a token check followed by `requireRole('admin')` for admin routes; this covers every route of the five routers |
| Routes.RunChain | src/routes/adminRoutes.js:8-14 | the first guard decides first: a token guard that denies, or a role guard that stops, ends the chain with its response (401 or 403); one that passes hands the rest of the chain the request, with the verified principal after a token guard; the empty chain admits; a chain with a token guard admits only with a principal |
| Routes.Authorize | src/routes/categoryRoutes.js:7-12 | public routes admit without a principal; other routes answer the token failure first, then 403 on admin routes for any role but `admin`, and otherwise admit with the decoded principal |
| Routes.AdmittedPrincipal | src/routes/adminRoutes.js:8-14 | a request admitted to a non-public route carries a principal, with role `admin` on admin routes |
| Routes.NoTokenMeans401 | src/routes/commentRoutes.js:9-11 | without a usable token every non-public route answers 401, never 403 |
| Routes.Dashboard | src/routes/userRoutes.js:7-9 | the dashboard greets the principal by its id and echoes the claims unchanged, `iat` and `exp` included |
| Scenarios.IssuedTokenPasses | src/middlewares/authMiddleware.js:3-12 | a token issued here, sent before expiry, passes `verifyToken` with exactly its claims |
| Scenarios.ExpiredTokenRefused | src/middlewares/authMiddleware.js:13-16 | the same token after seven days is answered 401 "Invalid or expired token" |
| Scenarios.AdminCannotDeleteOthersPost | src/controller/postController.js:220-222 | an admin's token reaches the delete handler, which still answers 403 for another user's post and leaves it in place |
| Scenarios.AnyUserSetsPostStatus | src/routes/postRoutes.js:33 | a plain user's token reaches the status handler, which changes any post's status |
| Scenarios.UserBarredFromAdminRoutes | src/routes/adminRoutes.js:8-14 | a plain user's token is answered 403 on every admin route |
| Scenarios.SelfRegisteredAdminPasses | src/controller/authController.js:29-63 | the token from a registration with `role: 'admin'` opens every admin route until it expires |
| Scenarios.DemotedAdminKeepsAccess | src/controller/userController.js:87-93 | demoting an admin in the store leaves its earlier token opening admin routes until expiry |

## Left out

- I/O and infrastructure: the database connection, console logging, the
  `SELECT 1 + 1` connection test, and the 500 answers for driver errors and
  thrown exceptions. Registration's unreachable `affectedRows == 0` branch
  is also left out.
- Express dispatch: route matching and ordering (`/myPosts` before
  `/:postId`), mount prefixes, JSON parsing, multipart parsing and disk
  storage. Route parameters are taken as numeric ids; a non-numeric id,
  which MySQL would coerce, is not modelled.
- multer's error path when the filter refuses a file, since it is handled by
  Express's default error handler. `Date.now()` in the file name is a
  parameter.
- Other modules: `authRoutes.js` (validator wiring only),
  `announcementController.js`, `server.js`, `testRoutes.js` and `testApp.js`.
- SQL semantics outside the handlers: the database's evaluation of the
  listing query (a parameter of `GetPosts`), `LIKE` matching and collation.
  The category order is code-point order, not the column collation.
- Schema.WithEmail, Schema.WithUsername, PostController.NamedCategory: the
  `WHERE email=?`, `WHERE username=?` and `WHERE name = ?` lookups are exact
  code-point equality, as under a binary collation. MySQL's default
  collation ignores case and accents, so with `bob` stored the source
  refuses `Bob` with 409 where the model registers it, and it lets
  `Alice@x.com` sign in to `alice@x.com` where the model answers "Invalid
  credentials".
- Row order of SELECTs without ORDER BY: the user listing, the email
  lookup in `login` and the category lookup by name in `createPost`
  (`catRows[0]`) have no ORDER BY, so MySQL promises no order. The model
  returns such rows in primary-key order, so `createPost` takes the lowest
  id among categories of that name. With unique emails the login lookup
  has at most one row, so nothing depends on the order there.
- Request bodies: every JSON field is modelled as absent or a string.
  Other JSON values are not: `role: null` fails `optional().isIn(...)` and
  gets 400, and a numeric password passes `isLength` and then makes
  `bcrypt.hash` throw (500).
- The database schema: foreign keys and cascades are not modelled. Deleting
  a user or a category leaves the rows that point to it; such posts and
  comments drop out of the inner-joined listings, and a post's category name
  becomes null. Any UNIQUE and NOT NULL constraints are not modelled.
- `created_at`: newest first is modelled as descending id, and the column
  itself is dropped from the rows the post listings answer with (`SELECT
  p.*` returns it).
- UPDATE and DELETE results: `affectedRows` is taken to count matched rows,
  so an UPDATE of an existing row with unchanged values still succeeds.
  After the lookup in `deletePost` succeeds, the DELETE always affects one
  row, so its "Post not found or already deleted" branch is unreachable in
  this sequential model.
- Concurrency between requests is not modelled.
- CategoryController.UpdateCategory: takes the name as given. An absent name (SQL NULL) is not
  modelled.
- AuthController.RegisterErrors: validation errors are reported as field names, not
  express-validator's error objects.
- AuthController.Login: the email is looked up as given, since the login validator does
  not normalise it.
- Token.Verify: jsonwebtoken's header segment, base64url encoding and
  HMAC algorithm are replaced by a dotted layout and a MAC parameter. The
  properties hold for any MAC. The layout fixes the claims to
  `id.role.iat.exp`: jsonwebtoken accepts any claim set signed with the
  secret, so a token carrying other claims (an `isAdmin`, say) cannot be
  written in the model.
- Password.Hash: bcrypt's cost is recorded but not interpreted. The salt
  is a parameter.

=== FILE: auth_controller.dfy ===
/** The account service: the request validators, registration and login,
    over the `users` table, with bcrypt and jsonwebtoken as `Password` and
    `Token`. express-validator's `isEmail` and `normalizeEmail` are opaque
    and arrive as parameters. */
module AuthController {
  import opened Common
  import opened Strings
  import opened Tables
  import opened Password
  import opened Schema
  import opened Http
  import opened Token

  datatype EmailRules = EmailRules(isEmail: string -> bool, normalize: string -> string)

  /** Everything outside the store a registration or login depends on: the
      validator's email rules, the key derivation, the signing key, the salt
      bcrypt draws for this request and the clock (seconds). */
  datatype AccountEnv = AccountEnv(rules: EmailRules, kdf: Kdf, key: Key, salt: nat, now: nat)

  datatype RegisterBody = RegisterBody(
    username: Option<string>,
    email: Option<string>,
    password: Option<string>,
    role: Option<string>)

  datatype LoginBody = LoginBody(email: Option<string>, password: Option<string>)

  const MinPasswordLength: nat := 6

  /** What `registerValidator` accepts: a username with a non-blank
      character, a valid email, a password of at least six characters as
      `isLength` counts them (variation selectors not counted), and
      a role, when one is given, of `user` or `admin`. */
  predicate ValidRegistration(b: RegisterBody, rules: EmailRules) {
    && b.username.Some? && !Blank(b.username.value)
    && b.email.Some? && rules.isEmail(b.email.value)
    && b.password.Some? && PresentationLength(b.password.value) >= MinPasswordLength
    && (b.role.Some? ==> b.role.value == "user" || b.role.value == "admin")
  }

  /** The fields `registerValidator` reports, in declaration order. A missing
      field is read as `''`, as the validator converts it. */
  function RegisterErrors(b: RegisterBody, rules: EmailRules): (errors: seq<string>)
    ensures errors == [] <==> ValidRegistration(b, rules)
    ensures forall i :: 0 <= i < |errors| ==> errors[i] in {"username", "email", "password", "role"}
  {
    TrimEmptyIffBlank(b.username.GetOr(""));
    (if Trim(b.username.GetOr("")) == "" then ["username"] else [])
    + (if b.email.None? || !rules.isEmail(b.email.value) then ["email"] else [])
    + (if PresentationLength(b.password.GetOr("")) < MinPasswordLength then ["password"] else [])
    + (if b.role.Some? && ParseRole(b.role.value).None? then ["role"] else [])
  }

  /** The username as stored: the validator's `trim()` rewrites the field. */
  function StoredUsername(b: RegisterBody): string {
    Trim(b.username.GetOr(""))
  }

  /** The email as stored and looked up: `normalizeEmail()` rewrites it. */
  function StoredEmail(b: RegisterBody, rules: EmailRules): string {
    rules.normalize(b.email.GetOr(""))
  }

  /** `role = 'user'` when the field is absent; a given role is kept. */
  function RequestedRole(b: RegisterBody): Role {
    if b.role.Some? && ParseRole(b.role.value).Some? then ParseRole(b.role.value).value else UserRole
  }

  /** The row registration inserts. */
  function NewAccount(b: RegisterBody, env: AccountEnv): User {
    User(StoredUsername(b), StoredEmail(b, env.rules),
         Hash(env.kdf, b.password.GetOr(""), env.salt), RequestedRole(b), None, None, None)
  }

  /** The email lookup finds nothing exactly when no account has the email. */
  lemma EmailLookup(users: Table<User>, email: string)
    ensures FindFirst(users, WithEmail(email)).None? <==> !EmailTaken(users, email)
  {
    if EmailTaken(users, email) {
      var k: nat :| Get(users, k).Some? && Get(users, k).value.email == email;
      assert Matches(users, k, WithEmail(email));
    }
  }

  /** The username lookup finds nothing exactly when no account has it. */
  lemma UsernameLookup(users: Table<User>, username: string)
    ensures FindFirst(users, WithUsername(username)).None? <==> !UsernameTaken(users, username)
  {
    if UsernameTaken(users, username) {
      var k: nat :| Get(users, k).Some? && Get(users, k).value.username == username;
      assert Matches(users, k, WithUsername(username));
    }
  }

  /** `register`. Validation, then the email check, then the username check,
      then one INSERT and a token for the new id and role. */
  function Register(db: Db, b: RegisterBody, env: AccountEnv): (r: Reply)
    ensures !ValidRegistration(b, env.rules) ==>
              r.db == db && r.response.status == 400 && r.response.body.ValidationBody?
    ensures ValidRegistration(b, env.rules) && EmailTaken(db.users, StoredEmail(b, env.rules)) ==>
              r == Reply(Fail(409, "Email already registered"), db)
    ensures ValidRegistration(b, env.rules) && !EmailTaken(db.users, StoredEmail(b, env.rules))
              && UsernameTaken(db.users, StoredUsername(b)) ==>
              r == Reply(Fail(409, "Username already taken"), db)
    ensures r.response.status == 201 <==>
              && ValidRegistration(b, env.rules)
              && !EmailTaken(db.users, StoredEmail(b, env.rules))
              && !UsernameTaken(db.users, StoredUsername(b))
    ensures r.response.status != 201 ==> r.db == db
    ensures r.response.status == 201 ==>
              && r.db == db.(users := Insert(db.users, NewAccount(b, env)))
              && Compare(env.kdf, b.password.value, NewAccount(b, env).password)
              && r.response.body == TokenBody(Sign(env.key, NextId(db.users), RequestedRole(b), env.now))
              && Verify(env.key, r.response.body.token, env.now)
                 == Valid(Payload(NextId(db.users), RequestedRole(b), env.now))
  {
    var errors := RegisterErrors(b, env.rules);
    EmailLookup(db.users, StoredEmail(b, env.rules));
    UsernameLookup(db.users, StoredUsername(b));
    if errors != [] then Reply(Response(400, ValidationBody(errors)), db)
    else if FindFirst(db.users, WithEmail(StoredEmail(b, env.rules))).Some? then
      Reply(Fail(409, "Email already registered"), db)
    else if FindFirst(db.users, WithUsername(StoredUsername(b))).Some? then
      Reply(Fail(409, "Username already taken"), db)
    else
      var id := NextId(db.users);
      var role := RequestedRole(b);
      SignVerify(env.key, id, role, env.now, env.now);
      Reply(Response(201, TokenBody(Sign(env.key, id, role, env.now))),
            db.(users := Insert(db.users, NewAccount(b, env))))
  }

  /** What `loginValidator` accepts. */
  predicate ValidLogin(b: LoginBody, rules: EmailRules) {
    b.email.Some? && rules.isEmail(b.email.value) && b.password.Some? && b.password.value != ""
  }

  function LoginErrors(b: LoginBody, rules: EmailRules): (errors: seq<string>)
    ensures errors == [] <==> ValidLogin(b, rules)
  {
    (if b.email.None? || !rules.isEmail(b.email.value) then ["email"] else [])
    + (if b.password.GetOr("") == "" then ["password"] else [])
  }

  /** The one answer for an unknown email and for a wrong password. */
  function InvalidCredentials(): Response {
    Fail(400, "Invalid credentials")
  }

  /** `login`. The email is looked up as given (the login validator does not
      normalise it); the first matching row's digest is compared. Login
      returns a response only: it has no store to change. */
  function Login(db: Db, b: LoginBody, env: AccountEnv): (r: Response)
    ensures !ValidLogin(b, env.rules) ==> r.status == 400 && r.body.ValidationBody?
    ensures ValidLogin(b, env.rules) && !EmailTaken(db.users, b.email.value) ==> r == InvalidCredentials()
    ensures r.status == 200 ==>
              exists id: nat ::
                && Get(db.users, id).Some?
                && Get(db.users, id).value.email == b.email.value
                && Compare(env.kdf, b.password.value, Get(db.users, id).value.password)
                && r == Response(200, TokenBody(Sign(env.key, id, Get(db.users, id).value.role, env.now)))
    ensures r.status == 200 || r == InvalidCredentials() || (r.status == 400 && r.body.ValidationBody?)
  {
    var errors := LoginErrors(b, env.rules);
    if errors != [] then Response(400, ValidationBody(errors))
    else
      match FindFirst(db.users, WithEmail(b.email.value))
      case None => InvalidCredentials()
      case Some(id) =>
        var u := Get(db.users, id).value;
        if !Compare(env.kdf, b.password.value, u.password) then InvalidCredentials()
        else Response(200, TokenBody(Sign(env.key, id, u.role, env.now)))
  }

  /** With unique emails, a valid login for user `id` succeeds exactly when
      the password matches its digest, and the token it returns verifies to
      that user's id and stored role. */
  lemma LoginOfKnownUser(db: Db, b: LoginBody, env: AccountEnv, id: nat)
    requires UniqueAccounts(db.users) && ValidLogin(b, env.rules)
    requires Get(db.users, id).Some? && Get(db.users, id).value.email == b.email.value
    ensures Login(db, b, env).status == 200 <==>
              Compare(env.kdf, b.password.value, Get(db.users, id).value.password)
    ensures Login(db, b, env).status != 200 ==> Login(db, b, env) == InvalidCredentials()
    ensures Login(db, b, env).status == 200 ==>
              Verify(env.key, Login(db, b, env).body.token, env.now)
                == Valid(Payload(id, Get(db.users, id).value.role, env.now))
  {
    var found := FindFirst(db.users, WithEmail(b.email.value));
    assert Matches(db.users, id, WithEmail(b.email.value));
    assert found == Some(id);
    SignVerify(env.key, id, Get(db.users, id).value.role, env.now, env.now);
  }

  /** An unknown email and a wrong password for a known one are answered
      identically, so the answer does not reveal which emails exist. */
  lemma LoginFailuresIndistinguishable(db: Db, unknown: LoginBody, wrong: LoginBody, env: AccountEnv, id: nat)
    requires UniqueAccounts(db.users)
    requires ValidLogin(unknown, env.rules) && ValidLogin(wrong, env.rules)
    requires !EmailTaken(db.users, unknown.email.value)
    requires Get(db.users, id).Some? && Get(db.users, id).value.email == wrong.email.value
    requires !Compare(env.kdf, wrong.password.value, Get(db.users, id).value.password)
    ensures Login(db, unknown, env) == Login(db, wrong, env) == InvalidCredentials()
  {
    LoginOfKnownUser(db, wrong, env, id);
  }

  /** Registration keeps emails and usernames unique. */
  lemma RegisterKeepsAccountsUnique(db: Db, b: RegisterBody, env: AccountEnv)
    requires UniqueAccounts(db.users)
    ensures UniqueAccounts(Register(db, b, env).db.users)
  {
    var r := Register(db, b, env);
    if r.response.status == 201 {
      var users := r.db.users;
      var newId := NextId(db.users);
      forall i: nat, j: nat | Get(users, i).Some? && Get(users, j).Some? && i != j
        ensures Get(users, i).value.email != Get(users, j).value.email
        ensures Get(users, i).value.username != Get(users, j).value.username
      {
        if i == newId {
          assert Get(users, j) == Get(db.users, j);
        } else if j == newId {
          assert Get(users, i) == Get(db.users, i);
        }
      }
    }
  }

  /** Without a `role` field a new account is a plain user, in the store
      and in its token. */
  lemma RegisterDefaultsToUser(db: Db, b: RegisterBody, env: AccountEnv)
    requires b.role.None?
    requires Register(db, b, env).response.status == 201
    ensures Get(Register(db, b, env).db.users, NextId(db.users)).value.role == UserRole
    ensures Verify(env.key, Register(db, b, env).response.body.token, env.now).principal.role == "user"
  {
  }

  /** A caller may register as `admin`: the row stores the admin role and
      the token carries it. */
  lemma RegisterAcceptsSelfAssignedAdmin(db: Db, b: RegisterBody, env: AccountEnv)
    requires b.role == Some("admin")
    requires Register(db, b, env).response.status == 201
    ensures Get(Register(db, b, env).db.users, NextId(db.users)).value.role == AdminRole
    ensures Verify(env.key, Register(db, b, env).response.body.token, env.now).principal.role == "admin"
  {
  }

  /** When both the email and the username are taken, the email conflict is
      the one reported. */
  lemma EmailConflictWins(db: Db, b: RegisterBody, env: AccountEnv)
    requires ValidRegistration(b, env.rules)
    requires EmailTaken(db.users, StoredEmail(b, env.rules)) && UsernameTaken(db.users, StoredUsername(b))
    ensures Register(db, b, env).response == Fail(409, "Email already registered")
  {
  }

  /** After a successful registration, logging in at a later clock with the
      stored email and the same password (the stored email passing the login
      validator) succeeds, with a token for the new account. */
  lemma RegisterThenLogin(db: Db, b: RegisterBody, env: AccountEnv, later: nat)
    requires UniqueAccounts(db.users)
    requires Register(db, b, env).response.status == 201
    requires env.rules.isEmail(StoredEmail(b, env.rules))
    ensures var login := LoginBody(Some(StoredEmail(b, env.rules)), b.password);
      var r := Login(Register(db, b, env).db, login, env.(now := later));
      r.status == 200
      && Verify(env.key, r.body.token, later) == Valid(Payload(NextId(db.users), RequestedRole(b), later))
  {
    var db' := Register(db, b, env).db;
    RegisterKeepsAccountsUnique(db, b, env);
    var login := LoginBody(Some(StoredEmail(b, env.rules)), b.password);
    LoginOfKnownUser(db', login, env.(now := later), NextId(db.users));
  }
}

=== FILE: auth_middleware.dfy ===
/** The two middlewares every protected route goes through: `verifyToken`
    turns the `Authorization` header into a principal or a 401, and
    `requireRole(r)` lets through only a principal whose role is exactly `r`.
    Neither takes the store: the outcome depends on the header, and on the
    secret and the clock through `verify`, only. */
module AuthMiddleware {
  import opened Common
  import opened Strings
  import opened Schema
  import opened Http

  /** The case-sensitive scheme prefix, space included. */
  const Scheme := "Bearer "

  /** `auth.startsWith('Bearer ') ? auth.split(' ')[1] : null`, with an absent
      header read as `''` and a falsy (missing or empty) field read as no
      token. */
  function BearerToken(header: Option<string>): (token: Option<string>)
    ensures token.Some? ==> token.value != "" && ' ' !in token.value
    ensures token.Some? ==> header.Some? && StartsWith(header.value, Scheme)
  {
    var auth := header.GetOr("");
    if StartsWith(auth, Scheme) then
      var fields := Split(auth, ' ');
      if |fields| > 1 && fields[1] != "" then Some(fields[1]) else None
    else None
  }

  lemma SchemeSplit(auth: string)
    requires StartsWith(auth, Scheme)
    ensures Split(auth, ' ') == ["Bearer"] + Split(auth[|Scheme|..], ' ')
  {
    assert auth == "Bearer" + [' '] + auth[|Scheme|..];
    SplitAtSeparator("Bearer", ' ', auth[|Scheme|..]);
  }

  /** A token is only ever read from `Bearer <token>` or
      `Bearer <token> <anything>`, and it is non-empty and space-free. */
  lemma {:induction false} BearerTokenShape(header: Option<string>)
    requires BearerToken(header).Some?
    ensures var token := BearerToken(header).value;
      || header.value == Scheme + token
      || StartsWith(header.value, Scheme + token + " ")
  {
    var auth := header.value;
    var token := BearerToken(header).value;
    var rest := auth[|Scheme|..];
    assert auth == Scheme + rest;
    SchemeSplit(auth);
    var pieces := Split(rest, ' ');
    assert token == pieces[0];
    JoinSplit(rest, ' ');
    if |pieces| == 1 {
      assert rest == token;
    } else {
      assert rest == token + " " + Join(pieces[1..], " ");
      assert auth == (Scheme + token + " ") + Join(pieces[1..], " ");
    }
  }

  /** Conversely, each such header yields its token. */
  lemma {:induction false} BearerTokenAccepts(header: Option<string>, token: string)
    requires token != "" && ' ' !in token && header.Some?
    requires header.value == Scheme + token || StartsWith(header.value, Scheme + token + " ")
    ensures BearerToken(header) == Some(token)
  {
    var auth := header.value;
    var rest := auth[|Scheme|..];
    assert StartsWith(auth, Scheme);
    SchemeSplit(auth);
    if auth == Scheme + token {
      assert rest == token;
      SplitNoSeparator(token, ' ');
    } else {
      var more := auth[|Scheme + token + " "|..];
      assert rest == token + [' '] + more;
      SplitAtSeparator(token, ' ', more);
    }
  }

  /** What `verifyToken` does with the request: stop it with a response, or
      attach the principal and call `next` once. */
  datatype Gate = Deny(response: Response) | Pass(principal: Principal)

  /** `verifyToken`, where `verify` is `jwt.verify` with the process secret at
      the current clock (`None` where it throws). */
  function VerifyToken(header: Option<string>, verify: string -> Option<Principal>): (g: Gate)
    ensures BearerToken(header).None? ==> g == Deny(Fail(401, "No token provided"))
    ensures BearerToken(header).Some? && verify(BearerToken(header).value).None? ==>
              g == Deny(Fail(401, "Invalid or expired token"))
    ensures g.Pass? <==> BearerToken(header).Some? && verify(BearerToken(header).value).Some?
    ensures g.Pass? ==> verify(BearerToken(header).value) == Some(g.principal)
  {
    match BearerToken(header)
    case None => Deny(Fail(401, "No token provided"))
    case Some(token) =>
      match verify(token)
      case None => Deny(Fail(401, "Invalid or expired token"))
      case Some(claims) => Pass(claims)
  }

  /** What `requireRole` does: call `next`, or stop with a response. */
  datatype Verdict = Next | Stop(response: Response)

  /** `requireRole(role)` applied to `req.user`. */
  function RequireRole(role: string, user: Option<Principal>): (v: Verdict)
    ensures user.None? ==> v == Stop(Fail(401, "Unauthorized"))
    ensures user.Some? ==> (v == Next <==> user.value.role == role)
    ensures user.Some? && user.value.role != role ==> v == Stop(Fail(403, "Forbidden"))
  {
    match user
    case None => Stop(Fail(401, "Unauthorized"))
    case Some(p) => if p.role != role then Stop(Fail(403, "Forbidden")) else Next
  }
}

=== FILE: category_controller.dfy ===
/** The category handlers: create, list ordered by name, rename, delete. */
module CategoryController {
  import opened Common
  import opened Strings
  import opened Tables
  import opened Schema
  import opened Http

  // ---------------------------------------------------------------------------
  // ORDER BY name

  predicate SortedByName(rows: seq<CategoryRow>) {
    forall i, j :: 0 <= i < j < |rows| ==> LexLe(rows[i].name, rows[j].name)
  }

  /** A row whose name is no later than any of a sorted list's heads that
      list, keeping it sorted. */
  lemma ConsSorted(h: CategoryRow, rows: seq<CategoryRow>)
    requires SortedByName(rows)
    requires forall j :: 0 <= j < |rows| ==> LexLe(h.name, rows[j].name)
    ensures SortedByName([h] + rows)
  {
    assert forall j :: 1 <= j < |[h] + rows| ==> ([h] + rows)[j] == rows[j - 1];
  }

  /** Putting `x` in front of a sorted list whose head it does not sort
      after keeps it sorted. */
  lemma InsertAtHead(x: CategoryRow, rows: seq<CategoryRow>)
    requires SortedByName(rows) && |rows| > 0 && LexLe(x.name, rows[0].name)
    ensures SortedByName([x] + rows)
  {
    forall j | 0 <= j < |rows| ensures LexLe(x.name, rows[j].name) {
      if j > 0 {
        LexLeTransitive(x.name, rows[0].name, rows[j].name);
      }
    }
    ConsSorted(x, rows);
  }

  /** The tail of a sorted list is sorted and bounded below by its head. */
  lemma SortedTail(rows: seq<CategoryRow>)
    requires SortedByName(rows) && |rows| > 0
    ensures SortedByName(rows[1..])
    ensures forall j :: 0 <= j < |rows[1..]| ==> LexLe(rows[0].name, rows[1..][j].name)
  {
    assert forall j :: 0 <= j < |rows[1..]| ==> rows[1..][j] == rows[j + 1];
  }

  /** Keeping the head of a sorted list in front of the insertion into its
      tail keeps the whole sorted, when `x` sorts after that head. */
  lemma InsertBehindHead(x: CategoryRow, rows: seq<CategoryRow>, rest: seq<CategoryRow>)
    requires SortedByName(rows) && |rows| > 0 && LexLe(rows[0].name, x.name)
    requires SortedByName(rest) && multiset(rest) == multiset(rows[1..]) + multiset{x}
    ensures SortedByName([rows[0]] + rest)
    ensures multiset([rows[0]] + rest) == multiset(rows) + multiset{x}
  {
    SortedTail(rows);
    BoundKept(rows[0].name, x, rows[1..], rest);
    ConsSorted(rows[0], rest);
    assert rows == [rows[0]] + rows[1..];
  }

  /** Puts `x` before the first row whose name does not sort before it. */
  function InsertByName(x: CategoryRow, rows: seq<CategoryRow>): (r: seq<CategoryRow>)
    requires SortedByName(rows)
    ensures SortedByName(r)
    ensures multiset(r) == multiset(rows) + multiset{x}
  {
    if |rows| == 0 then [x]
    else if LexLe(x.name, rows[0].name) then
      InsertAtHead(x, rows);
      [x] + rows
    else
      LexLeTotal(x.name, rows[0].name);
      SortedTail(rows);
      var rest := InsertByName(x, rows[1..]);
      InsertBehindHead(x, rows, rest);
      [rows[0]] + rest
  }

  /** A name no later than `x` and every row of `tail` is no later than any
      row of a permutation of `tail` with `x` added. */
  lemma BoundKept(lo: string, x: CategoryRow, tail: seq<CategoryRow>, rest: seq<CategoryRow>)
    requires LexLe(lo, x.name)
    requires forall j :: 0 <= j < |tail| ==> LexLe(lo, tail[j].name)
    requires multiset(rest) == multiset(tail) + multiset{x}
    ensures forall j :: 0 <= j < |rest| ==> LexLe(lo, rest[j].name)
  {
    forall j | 0 <= j < |rest| ensures LexLe(lo, rest[j].name) {
      assert rest[j] in multiset(rest);
      if rest[j] != x {
        assert rest[j] in multiset(tail);
      }
    }
  }

  /** A stable insertion sort by name: the same rows, in name order. */
  function SortByName(rows: seq<CategoryRow>): (r: seq<CategoryRow>)
    ensures SortedByName(r)
    ensures multiset(r) == multiset(rows)
  {
    if |rows| == 0 then []
    else
      assert rows == [rows[0]] + rows[1..];
      InsertByName(rows[0], SortByName(rows[1..]))
  }

  // ---------------------------------------------------------------------------
  // handlers

  /** `createCategory`. */
  function CreateCategory(db: Db, name: Option<string>): (r: Reply)
    ensures !Truthy(name) ==> r == Reply(Say(400, "Name is required"), db)
    ensures r.response.status == 201 <==> Truthy(name)
    ensures r.response.status == 201 ==>
              && r.db == db.(categories := Insert(db.categories, Category(name.value)))
              && r.response.body == CategoryBody(CategoryRow(NextId(db.categories), name.value))
              && Get(r.db.categories, NextId(db.categories)) == Some(Category(name.value))
  {
    if !Truthy(name) then Reply(Say(400, "Name is required"), db)
    else
      var db' := db.(categories := Insert(db.categories, Category(name.value)));
      Reply(Response(201, CategoryBody(CategoryRow(NextId(db.categories), name.value))), db')
  }

  function AnyCategory(): Category -> bool {
    (c: Category) => true
  }

  /** The rows of `categories` in primary-key order. */
  function AllRows(db: Db): (rows: seq<CategoryRow>)
    ensures forall i :: 0 <= i < |rows| ==> Get(db.categories, rows[i].id) == Some(Category(rows[i].name))
    ensures forall i, j :: 0 <= i < j < |rows| ==> rows[i].id < rows[j].id
    ensures forall k: nat :: Get(db.categories, k).Some? ==>
              exists i :: 0 <= i < |rows| && rows[i].id == k
  {
    var ids := Select(db.categories, AnyCategory());
    var rows := seq(|ids|, i requires 0 <= i < |ids| =>
      assert ids[i] in ids;
      CategoryRow(ids[i], Get(db.categories, ids[i]).value.name));
    forall i | 0 <= i < |rows|
      ensures rows[i].id == ids[i] && Get(db.categories, rows[i].id) == Some(Category(rows[i].name))
    {
      assert ids[i] in ids;
    }
    forall k: nat | Get(db.categories, k).Some?
      ensures exists i :: 0 <= i < |rows| && rows[i].id == k
    {
      assert Matches(db.categories, k, AnyCategory());
      var i :| 0 <= i < |ids| && ids[i] == k;
      assert rows[i].id == k;
    }
    rows
  }

  /** `getAllCategories`: every row, ordered by name. */
  function GetAllCategories(db: Db): (r: Response)
    ensures r.status == 200 && r.body.CategoryListBody?
    ensures SortedByName(r.body.categories)
    ensures multiset(r.body.categories) == multiset(AllRows(db))
    ensures forall i :: 0 <= i < |r.body.categories| ==>
              Get(db.categories, r.body.categories[i].id) == Some(Category(r.body.categories[i].name))
    ensures forall k: nat :: Get(db.categories, k).Some? ==>
              exists i :: 0 <= i < |r.body.categories| && r.body.categories[i].id == k
    ensures forall i, j :: 0 <= i < j < |r.body.categories| ==>
              r.body.categories[i].id != r.body.categories[j].id
  {
    var all := AllRows(db);
    var sorted := SortByName(all);
    PermutationKeepsDistinct(all, sorted);
    forall i | 0 <= i < |sorted|
      ensures Get(db.categories, sorted[i].id) == Some(Category(sorted[i].name))
    {
      assert sorted[i] in multiset(all);
    }
    forall k: nat | Get(db.categories, k).Some?
      ensures exists i :: 0 <= i < |sorted| && sorted[i].id == k
    {
      var j :| 0 <= j < |all| && all[j].id == k;
      assert all[j] in multiset(sorted);
    }
    Response(200, CategoryListBody(sorted))
  }

  /** No element occurs twice. */
  ghost predicate Distinct<T>(s: seq<T>) {
    forall i, j :: 0 <= i < j < |s| ==> s[i] != s[j]
  }

  lemma {:induction false} DistinctAtMostOnce<T>(s: seq<T>, x: T)
    requires Distinct(s)
    ensures multiset(s)[x] <= 1
  {
    if |s| > 0 {
      assert s == [s[0]] + s[1..];
      assert Distinct(s[1..]) by {
        forall i, j | 0 <= i < j < |s[1..]| ensures s[1..][i] != s[1..][j] {
          assert s[1..][i] == s[i + 1] && s[1..][j] == s[j + 1];
        }
      }
      DistinctAtMostOnce(s[1..], x);
      if s[0] == x {
        forall j | 0 <= j < |s[1..]| ensures s[1..][j] != x {
          assert s[1..][j] == s[j + 1];
        }
        assert x !in s[1..];
      }
    }
  }

  lemma RepeatCountsTwice<T>(s: seq<T>, i: nat, j: nat)
    requires i < j < |s| && s[i] == s[j]
    ensures multiset(s)[s[i]] >= 2
  {
    assert s == s[..j] + s[j..];
    assert s[..j][i] == s[i];
    assert s[j..][0] == s[i];
  }

  /** A permutation of a sequence without repeats has none either. */
  lemma PermutationKeepsDistinct<T>(a: seq<T>, b: seq<T>)
    requires Distinct(a) && multiset(a) == multiset(b)
    ensures Distinct(b)
  {
    forall i, j | 0 <= i < j < |b| ensures b[i] != b[j] {
      if b[i] == b[j] {
        RepeatCountsTwice(b, i, j);
        DistinctAtMostOnce(a, b[i]);
      }
    }
  }

  /** `updateCategory`: renames an existing row and echoes it. */
  function UpdateCategory(db: Db, id: nat, name: string): (r: Reply)
    ensures r.response.status == 200 <==> Get(db.categories, id).Some?
    ensures Get(db.categories, id).None? ==> r == Reply(Say(404, "Category not found"), db)
    ensures r.response.status == 200 ==>
              && r.response.body == CategoryBody(CategoryRow(id, name))
              && r.db == db.(categories := r.db.categories)
              && Get(r.db.categories, id) == Some(Category(name))
              && forall k: nat :: k != id ==> Get(r.db.categories, k) == Get(db.categories, k)
  {
    if Get(db.categories, id).None? then Reply(Say(404, "Category not found"), db)
    else Reply(Response(200, CategoryBody(CategoryRow(id, name))),
               db.(categories := Update(db.categories, id, Category(name))))
  }

  /** `deleteCategory`. Posts that name the category keep its id; their
      category name becomes NULL in the joined listings. */
  function DeleteCategory(db: Db, id: nat): (r: Reply)
    ensures r.response.status == 200 <==> Get(db.categories, id).Some?
    ensures Get(db.categories, id).None? ==> r == Reply(Say(404, "Category not found"), db)
    ensures r.response.status == 200 ==>
              && r.response == Say(200, "Category deleted successfully")
              && r.db == db.(categories := r.db.categories)
              && Get(r.db.categories, id).None?
              && forall k: nat :: k != id ==> Get(r.db.categories, k) == Get(db.categories, k)
  {
    if Get(db.categories, id).None? then Reply(Say(404, "Category not found"), db)
    else Reply(Say(200, "Category deleted successfully"), db.(categories := Delete(db.categories, id)))
  }
}

=== FILE: comment_controller.dfy ===
/** The comment handlers: add (any signed-in principal, on an existing
    post), list a post's comments, and delete (owner, or a principal with a
    truthy `isAdmin` claim). */
module CommentController {
  import opened Common
  import opened Tables
  import opened Schema
  import opened Http

  /** `findCommentById`: the comment joined with its author's username. A
      comment whose author row is gone is not found. */
  function FindCommentById(db: Db, id: nat): (r: Option<CommentRow>)
    ensures r.Some? <==> Get(db.comments, id).Some? && Get(db.users, Get(db.comments, id).value.userId).Some?
    ensures r.Some? ==>
              && r.value.id == id
              && r.value.comment == Get(db.comments, id).value
              && r.value.username == Get(db.users, r.value.comment.userId).value.username
  {
    match Get(db.comments, id)
    case None => None
    case Some(c) =>
      match Get(db.users, c.userId)
      case None => None
      case Some(u) => Some(CommentRow(id, c, u.username))
  }

  /** `addComment`: content is checked before the post is looked up. */
  function AddComment(db: Db, user: Principal, postId: nat, content: Option<string>): (r: Reply)
    ensures !Truthy(content) ==> r == Reply(Say(400, "Content is required"), db)
    ensures Truthy(content) && Get(db.posts, postId).None? ==> r == Reply(Say(404, "Post not found"), db)
    ensures r.response.status == 201 <==> Truthy(content) && Get(db.posts, postId).Some?
    ensures r.response.status != 201 ==> r.db == db
    ensures r.response.status == 201 ==>
              && r.db == db.(comments := Insert(db.comments, Comment(postId, user.id, content.value)))
              && r.response.body.CommentAddedBody?
              && r.response.body.message == "Comment added"
              && r.response.body.added == FindCommentById(r.db, NextId(db.comments))
              && (Get(db.users, user.id).Some? ==>
                    r.response.body.added.Some?
                    && r.response.body.added.value.comment == Comment(postId, user.id, content.value))
  {
    if !Truthy(content) then Reply(Say(400, "Content is required"), db)
    else if Get(db.posts, postId).None? then Reply(Say(404, "Post not found"), db)
    else
      var db' := db.(comments := Insert(db.comments, Comment(postId, user.id, content.value)));
      Reply(Response(201, CommentAddedBody("Comment added", FindCommentById(db', NextId(db.comments)))), db')
  }

  /** The WHERE and JOIN conditions of the listing: the comment is on the
      post and its author row exists. */
  function OnPostByKnownUser(db: Db, postId: nat): Comment -> bool {
    (c: Comment) => c.postId == postId && Get(db.users, c.userId).Some?
  }

  /** The comment `k` is one of the rows of the listing's inner join. */
  predicate Listed(db: Db, postId: nat, k: nat) {
    FindCommentById(db, k).Some? && Get(db.comments, k).value.postId == postId
  }

  /** `getComments`: the post's comments joined with their authors, newest
      first (insertion order stands in for `created_at`). */
  function GetComments(db: Db, postId: nat): (r: Response)
    ensures r.status == 200 && r.body.CommentListBody?
    ensures forall i :: 0 <= i < |r.body.comments| ==>
              Listed(db, postId, r.body.comments[i].id)
              && Some(r.body.comments[i]) == FindCommentById(db, r.body.comments[i].id)
    ensures forall k: nat :: Listed(db, postId, k) ==>
              exists i :: 0 <= i < |r.body.comments| && r.body.comments[i].id == k
    ensures forall i, j :: 0 <= i < j < |r.body.comments| ==> r.body.comments[i].id > r.body.comments[j].id
  {
    var ids := SelectNewestFirst(db.comments, OnPostByKnownUser(db, postId));
    assert forall i :: 0 <= i < |ids| ==> ids[i] in ids;
    var rows := seq(|ids|, i requires 0 <= i < |ids| => FindCommentById(db, ids[i]).value);
    forall i | 0 <= i < |rows|
      ensures rows[i].id == ids[i] && Listed(db, postId, rows[i].id)
      ensures Some(rows[i]) == FindCommentById(db, rows[i].id)
    {
      assert Matches(db.comments, ids[i], OnPostByKnownUser(db, postId));
    }
    forall k: nat | Listed(db, postId, k)
      ensures exists i :: 0 <= i < |rows| && rows[i].id == k
    {
      assert Matches(db.comments, k, OnPostByKnownUser(db, postId));
      var i :| 0 <= i < |ids| && ids[i] == k;
      assert rows[i].id == k;
    }
    Response(200, CommentListBody(rows))
  }

  /** `deleteComment`. */
  function DeleteComment(db: Db, user: Principal, id: nat): (r: Reply)
    ensures FindCommentById(db, id).None? ==> r == Reply(Say(404, "Comment not found"), db)
    ensures r.response.status == 200 <==>
              FindCommentById(db, id).Some?
              && (Get(db.comments, id).value.userId == user.id || user.isAdmin)
    ensures FindCommentById(db, id).Some? && Get(db.comments, id).value.userId != user.id && !user.isAdmin ==>
              r == Reply(Say(403, "Not authorized to delete this comment"), db)
    ensures r.response.status == 200 ==>
              r.response == Say(200, "Comment deleted")
              && r.db == db.(comments := r.db.comments)
              && Get(r.db.comments, id).None?
              && forall k: nat :: k != id ==> Get(r.db.comments, k) == Get(db.comments, k)
    ensures r.response.status != 200 ==> r.db == db
  {
    match FindCommentById(db, id)
    case None => Reply(Say(404, "Comment not found"), db)
    case Some(found) =>
      if found.comment.userId != user.id && !user.isAdmin then
        Reply(Say(403, "Not authorized to delete this comment"), db)
      else
        Reply(Say(200, "Comment deleted"), db.(comments := Delete(db.comments, id)))
  }

  /** A comment added by an existing user shows up in the post's listing. */
  lemma AddedCommentIsListed(db: Db, user: Principal, postId: nat, content: Option<string>)
    requires AddComment(db, user, postId, content).response.status == 201
    requires Get(db.users, user.id).Some?
    ensures var r := AddComment(db, user, postId, content);
            exists i :: 0 <= i < |GetComments(r.db, postId).body.comments|
                        && GetComments(r.db, postId).body.comments[i] == r.response.body.added.value
  {
    var r := AddComment(db, user, postId, content);
    var id := NextId(db.comments);
    assert Listed(r.db, postId, id);
    var rows := GetComments(r.db, postId).body.comments;
    var i :| 0 <= i < |rows| && rows[i].id == id;
    assert Some(rows[i]) == FindCommentById(r.db, id);
  }

  /** Once deleted, a comment is in no listing. */
  lemma DeletedCommentIsGone(db: Db, user: Principal, id: nat, postId: nat)
    requires DeleteComment(db, user, id).response.status == 200
    ensures var r := DeleteComment(db, user, id);
            forall i :: 0 <= i < |GetComments(r.db, postId).body.comments| ==>
              GetComments(r.db, postId).body.comments[i].id != id
  {
  }
}

=== FILE: common.dfy ===
/** Small shared vocabulary: optional values and JavaScript truthiness of
    request fields. */
module Common {

  /** A value that may be absent: a missing request field, a SQL NULL, an
      empty query result. */
  datatype Option<+T> = None | Some(value: T) {

    /** The value, or `default` when absent. */
    function GetOr(default: T): T {
      match this
      case Some(v) => v
      case None => default
    }
  }

  /** JavaScript truthiness of an optional string field: `undefined` and the
      empty string are falsy, every other string is truthy. */
  predicate Truthy(field: Option<string>) {
    field.Some? && field.value != ""
  }
}

=== FILE: http.dfy ===
/** The JSON bodies and status codes the handlers answer with, and the
    (response, new store) pair a mutating handler produces. */
module Http {
  import opened Common
  import opened Schema

  /** The `media` object attached to a post. */
  datatype Media = Media(images: seq<string>, audio: seq<string>)

  /** A `posts` row joined with its author's username and email and, by a
      LEFT JOIN, the name of its category. */
  datatype PostRow = PostRow(
    id: nat,
    post: Post,
    username: string,
    email: string,
    categoryName: Option<string>)

  datatype PostWithMedia = PostWithMedia(row: PostRow, media: Media)

  /** The `post` object `createPost` answers with (the address is not in it). */
  datatype CreatedPost = CreatedPost(
    id: nat,
    userId: nat,
    title: string,
    content: string,
    image: Option<string>,
    categoryId: nat,
    status: Status)

  /** A row of the "my posts" listing. */
  datatype MyPostRow = MyPostRow(
    id: nat,
    title: string,
    content: string,
    address: Option<string>,
    category: Option<string>)

  /** A `comments` row joined with its author's username. */
  datatype CommentRow = CommentRow(id: nat, comment: Comment, username: string)

  /** A `users` row as the profile and admin listings select it: every column
      except `password`. */
  datatype UserView = UserView(
    id: nat,
    username: string,
    email: string,
    fullName: Option<string>,
    phone: Option<string>,
    address: Option<string>,
    role: Role)

  datatype CategoryRow = CategoryRow(id: nat, name: string)

  datatype Body =
    | ErrorBody(error: string)
    | MessageBody(message: string)
    | ValidationBody(errors: seq<string>)
    | TokenBody(token: string)
    | PostCreatedBody(message: string, created: CreatedPost)
    | PostListBody(posts: seq<PostWithMedia>)
    | PostBody(row: PostRow)
    | PostStatusBody(message: string, updated: Option<PostWithMedia>)
    | MyPostsBody(mine: seq<MyPostRow>)
    | CommentAddedBody(message: string, added: Option<CommentRow>)
    | CommentListBody(comments: seq<CommentRow>)
    | UserBody(user: UserView)
    | UserListBody(users: seq<UserView>)
    | CategoryBody(category: CategoryRow)
    | CategoryListBody(categories: seq<CategoryRow>)
    | DashboardBody(message: string, principal: Principal)

  datatype Response = Response(status: nat, body: Body)

  /** What a handler produces: its response and the store after it. */
  datatype Reply = Reply(response: Response, db: Db)

  /** `res.status(status).json({ error })`. */
  function Fail(status: nat, error: string): Response {
    Response(status, ErrorBody(error))
  }

  /** `res.status(status).json({ message })`. */
  function Say(status: nat, message: string): Response {
    Response(status, MessageBody(message))
  }
}

=== FILE: password.dfy ===
/** Password hashing as bcrypt is used by the account service: a salted,
    costed key derivation whose digest embeds its own cost and salt, and a
    comparison that recomputes the key from them. The key-derivation
    function itself is a parameter: nothing here depends on which one it is. */
module Password {

  /** The work factor the source passes to `bcrypt.hash`. */
  const SaltRounds: nat := 10

  /** A deterministic key derivation from (cost, salt, plaintext). */
  type Kdf = (nat, nat, string) -> string

  /** What is stored in the `password` column. */
  datatype Digest = Digest(cost: nat, salt: nat, key: string)

  /** `bcrypt.compare(password, digest)`: re-derive with the digest's own
      cost and salt and compare keys. */
  predicate Compare(kdf: Kdf, password: string, d: Digest) {
    kdf(d.cost, d.salt, password) == d.key
  }

  /** `bcrypt.hash(password, 10)` with the salt it draws. The digest records
      the cost and the salt, and the same password compares equal to it. */
  function Hash(kdf: Kdf, password: string, salt: nat): (d: Digest)
    ensures d.cost == SaltRounds && d.salt == salt
    ensures Compare(kdf, password, d)
  {
    Digest(SaltRounds, salt, kdf(SaltRounds, salt, password))
  }
}

=== FILE: post_controller.dfy ===
/** The post handlers as decision functions over the store: the guards each
    one runs (missing field 400, missing row 404, not owner 403) and the one
    row it then changes. The listing handler's SQL is built here; running it
    is the database's business and arrives as a parameter. */
module PostController {
  import opened Common
  import opened Strings
  import opened Tables
  import opened Schema
  import opened Http

  // ---------------------------------------------------------------------------
  // joins and media

  /** The LEFT JOIN on `categories`: the category's name, NULL when none. */
  function CategoryName(db: Db, categoryId: nat): (n: Option<string>)
    ensures n.Some? <==> Get(db.categories, categoryId).Some?
    ensures n.Some? ==> n.value == Get(db.categories, categoryId).value.name
  {
    match Get(db.categories, categoryId)
    case Some(c) => Some(c.name)
    case None => None
  }

  /** `row.image ? [row.image] : []` for images; audio is always empty. */
  function MediaOf(image: Option<string>): (m: Media)
    ensures m.audio == []
    ensures |m.images| <= 1
    ensures m.images != [] <==> Truthy(image)
    ensures forall i :: 0 <= i < |m.images| ==> m.images[i] == image.value
  {
    Media(if Truthy(image) then [image.value] else [], [])
  }

  function WithMedia(row: PostRow): PostWithMedia {
    PostWithMedia(row, MediaOf(row.post.image))
  }

  /** The post joined with its author (inner join) and category (left join).
      A post whose author row is gone is not found. */
  function JoinPost(db: Db, id: nat): (r: Option<PostRow>)
    ensures r.Some? <==> Get(db.posts, id).Some? && Get(db.users, Get(db.posts, id).value.userId).Some?
    ensures r.Some? ==>
              && r.value.id == id
              && r.value.post == Get(db.posts, id).value
              && r.value.username == Get(db.users, r.value.post.userId).value.username
              && r.value.email == Get(db.users, r.value.post.userId).value.email
              && r.value.categoryName == CategoryName(db, r.value.post.categoryId)
  {
    match Get(db.posts, id)
    case None => None
    case Some(p) =>
      match Get(db.users, p.userId)
      case None => None
      case Some(u) => Some(PostRow(id, p, u.username, u.email, CategoryName(db, p.categoryId)))
  }

  /** `findPostById`: the joined row with its `media` object. */
  function FindPostById(db: Db, id: nat): (r: Option<PostWithMedia>)
    ensures r.Some? <==> JoinPost(db, id).Some?
    ensures r.Some? ==> r.value.row == JoinPost(db, id).value
    ensures r.Some? ==> r.value.media == MediaOf(r.value.row.post.image)
  {
    match JoinPost(db, id)
    case None => None
    case Some(row) => Some(WithMedia(row))
  }

  // ---------------------------------------------------------------------------
  // create

  datatype NewPostBody = NewPostBody(
    title: Option<string>,
    content: Option<string>,
    category: Option<string>,
    address: Option<string>)

  /** `req.file ? '/uploads/' + filename : null`. */
  function ImagePath(uploaded: Option<string>): Option<string> {
    match uploaded
    case Some(filename) => Some("/uploads/" + filename)
    case None => None
  }

  /** The `WHERE name = ?` filter on categories. */
  function NamedCategory(name: string): Category -> bool {
    (c: Category) => c.name == name
  }

  ghost predicate CategoryExists(db: Db, name: string) {
    exists k: nat :: Get(db.categories, k).Some? && Get(db.categories, k).value.name == name
  }

  /** `db'` is `db` with one post added by `user`: pending, with the given
      title and content, the image path of the upload, the address only when
      truthy, and a category named as requested. */
  ghost predicate PostInserted(db: Db, db': Db, user: Principal, b: NewPostBody, uploaded: Option<string>) {
    b.title.Some? && b.content.Some? && b.category.Some? &&
    exists p: Post ::
      && db' == db.(posts := Insert(db.posts, p))
      && p.userId == user.id
      && p.status == Pending
      && p.title == b.title.value && p.content == b.content.value
      && p.image == ImagePath(uploaded)
      && p.address == (if Truthy(b.address) then b.address else None)
      && Get(db.categories, p.categoryId).Some?
      && Get(db.categories, p.categoryId).value.name == b.category.value
  }

  /** `createPost`. */
  function CreatePost(db: Db, user: Principal, b: NewPostBody, uploaded: Option<string>): (r: Reply)
    ensures !(Truthy(b.title) && Truthy(b.content) && Truthy(b.category)) ==>
              r == Reply(Say(400, "Title, content, and category are required"), db)
    ensures Truthy(b.title) && Truthy(b.content) && Truthy(b.category) && !CategoryExists(db, b.category.value) ==>
              r == Reply(Say(400, "Invalid category"), db)
    ensures r.response.status == 201 <==>
              Truthy(b.title) && Truthy(b.content) && Truthy(b.category) && CategoryExists(db, b.category.value)
    ensures r.response.status != 201 ==> r.db == db
    ensures r.response.status == 201 ==>
              && PostInserted(db, r.db, user, b, uploaded)
              && r.response.body.PostCreatedBody?
              && Get(r.db.posts, NextId(db.posts)).Some?
              && r.response.body.created
                 == CreatedPost(NextId(db.posts), user.id, b.title.value, b.content.value, ImagePath(uploaded),
                                Get(r.db.posts, NextId(db.posts)).value.categoryId, Pending)
  {
    var image := ImagePath(uploaded);
    if !Truthy(b.title) || !Truthy(b.content) || !Truthy(b.category) then
      Reply(Say(400, "Title, content, and category are required"), db)
    else
      var found := FindFirst(db.categories, NamedCategory(b.category.value));
      if found.None? then
        assert !CategoryExists(db, b.category.value) by {
          if CategoryExists(db, b.category.value) {
            var k: nat :| Get(db.categories, k).Some? && Get(db.categories, k).value.name == b.category.value;
            assert Matches(db.categories, k, NamedCategory(b.category.value));
          }
        }
        Reply(Say(400, "Invalid category"), db)
      else
        var categoryId := found.value;
        var address := if Truthy(b.address) then b.address else None;
        var p := Post(user.id, b.title.value, b.content.value, image, categoryId, Pending, address);
        var id := NextId(db.posts);
        Reply(Response(201, PostCreatedBody("Post created",
                CreatedPost(id, user.id, p.title, p.content, image, categoryId, Pending))),
              db.(posts := Insert(db.posts, p)))
  }

  // ---------------------------------------------------------------------------
  // listing

  /** The listing's query-string filters. */
  datatype PostFilters = PostFilters(
    category: Option<string>,
    status: Option<string>,
    search: Option<string>,
    address: Option<string>)

  /** One entry of `conditions` with the parameters it pushes. */
  datatype Condition = Condition(sql: string, params: seq<string>)

  /** The WHERE clause (empty when there are no conditions) and the bound
      parameters, in order. */
  datatype SqlQuery = SqlQuery(where: string, params: seq<string>)

  predicate Balanced(c: Condition) {
    Count(c.sql, '?') == |c.params|
  }

  /** A fragment of SQL text followed by one placeholder. */
  lemma OnePlaceholder(prefix: string)
    requires '?' !in prefix
    ensures Count(prefix + "?", '?') == 1
  {
    CountConcat(prefix, "?", '?');
  }

  /** A condition ending in its one placeholder, with the one parameter
      bound to it. */
  function SingleParam(sql: string, param: string): (c: Condition)
    requires '?' !in sql
    ensures Balanced(c)
    ensures c.params == [param]
  {
    OnePlaceholder(sql);
    Condition(sql + "?", [param])
  }

  function StatusEq(value: string): Condition {
    SingleParam("p.status = ", value)
  }

  function CategoryEq(value: string): Condition {
    SingleParam("p.category_id = ", value)
  }

  function AddressLike(value: string): Condition {
    SingleParam("p.address LIKE ", "%" + value + "%")
  }

  /** Three fragments of SQL text, each followed by a placeholder, then a
      closing fragment. */
  lemma ThreePlaceholders(a: string, b: string, c: string, d: string)
    requires '?' !in a && '?' !in b && '?' !in c && '?' !in d
    ensures Count((a + "?") + (b + "?") + (c + "?") + d, '?') == 3
  {
    OnePlaceholder(a);
    OnePlaceholder(b);
    OnePlaceholder(c);
    CountConcat(a + "?", b + "?", '?');
    CountConcat((a + "?") + (b + "?"), c + "?", '?');
    CountConcat((a + "?") + (b + "?") + (c + "?"), d, '?');
  }

  /** The search term is matched against title, content and author name. */
  function SearchLike(value: string): (c: Condition)
    ensures Balanced(c)
    ensures Count(c.sql, '?') == 3
    ensures c.params == ["%" + value + "%", "%" + value + "%", "%" + value + "%"]
  {
    ThreePlaceholders("(p.title LIKE ", " OR p.content LIKE ", " OR u.username LIKE ", ")");
    var pattern := "%" + value + "%";
    Condition(("(p.title LIKE " + "?") + (" OR p.content LIKE " + "?") + (" OR u.username LIKE " + "?") + ")",
              [pattern, pattern, pattern])
  }

  predicate AllBalanced(cs: seq<Condition>) {
    forall i :: 0 <= i < |cs| ==> Balanced(cs[i])
  }

  /** The status rule: no (or an empty) status means `approved`, `all` means
      no status condition, anything else is matched as given. */
  function StatusConditions(status: Option<string>): (cs: seq<Condition>)
    ensures !Truthy(status) ==> cs == [StatusEq("approved")]
    ensures status == Some("all") ==> cs == []
    ensures Truthy(status) && status.value != "all" ==> cs == [StatusEq(status.value)]
    ensures AllBalanced(cs)
  {
    if Truthy(status) && status.value != "all" then [StatusEq(status.value)]
    else if !Truthy(status) then [StatusEq("approved")]
    else []
  }

  /** The condition a truthy filter adds, none for a falsy one. */
  function CategoryConditions(category: Option<string>): (cs: seq<Condition>)
    ensures Truthy(category) ==> cs == [CategoryEq(category.value)]
    ensures !Truthy(category) ==> cs == []
    ensures AllBalanced(cs)
  {
    if Truthy(category) then [CategoryEq(category.value)] else []
  }

  function AddressConditions(address: Option<string>): (cs: seq<Condition>)
    ensures Truthy(address) ==> cs == [AddressLike(address.value)]
    ensures !Truthy(address) ==> cs == []
    ensures AllBalanced(cs)
  {
    if Truthy(address) then [AddressLike(address.value)] else []
  }

  function SearchConditions(search: Option<string>): (cs: seq<Condition>)
    ensures Truthy(search) ==> cs == [SearchLike(search.value)]
    ensures !Truthy(search) ==> cs == []
    ensures AllBalanced(cs)
  {
    if Truthy(search) then [SearchLike(search.value)] else []
  }

  /** `conditions`, in the order the handler pushes them. */
  function Conditions(f: PostFilters): (cs: seq<Condition>)
    ensures AllBalanced(cs)
  {
    var status := StatusConditions(f.status);
    var category := CategoryConditions(f.category);
    var address := AddressConditions(f.address);
    var search := SearchConditions(f.search);
    AllBalancedConcat(status, category);
    AllBalancedConcat(status + category, address);
    AllBalancedConcat(status + category + address, search);
    status + category + address + search
  }

  lemma AllBalancedConcat(xs: seq<Condition>, ys: seq<Condition>)
    requires AllBalanced(xs) && AllBalanced(ys)
    ensures AllBalanced(xs + ys)
  {
    assert forall i :: |xs| <= i < |xs + ys| ==> (xs + ys)[i] == ys[i - |xs|];
  }

  function Sqls(cs: seq<Condition>): (r: seq<string>)
    ensures |r| == |cs|
    ensures forall i :: 0 <= i < |cs| ==> r[i] == cs[i].sql
  {
    if |cs| == 0 then [] else [cs[0].sql] + Sqls(cs[1..])
  }

  function Params(cs: seq<Condition>): seq<string> {
    if |cs| == 0 then [] else cs[0].params + Params(cs[1..])
  }

  lemma {:induction false} JoinedPlaceholders(cs: seq<Condition>)
    requires AllBalanced(cs)
    ensures Count(Join(Sqls(cs), " AND "), '?') == |Params(cs)|
  {
    if |cs| > 1 {
      JoinedPlaceholders(cs[1..]);
      assert Sqls(cs)[1..] == Sqls(cs[1..]);
      CountConcat(cs[0].sql, " AND ", '?');
      CountConcat(cs[0].sql + " AND ", Join(Sqls(cs[1..]), " AND "), '?');
    } else if |cs| == 1 {
      assert Params(cs) == cs[0].params + Params([]);
    }
  }

  /** The listing query of `getPosts`: its WHERE clause holds exactly as many
      `?` placeholders as there are bound parameters. */
  function BuildQuery(f: PostFilters): (q: SqlQuery)
    ensures Count(q.where, '?') == |q.params|
    ensures q.params == Params(Conditions(f))
    ensures Conditions(f) == [] <==> q.where == ""
    ensures Conditions(f) != [] ==> q.where == " WHERE " + Join(Sqls(Conditions(f)), " AND ")
  {
    var cs := Conditions(f);
    JoinedPlaceholders(cs);
    if |cs| == 0 then SqlQuery("", Params(cs))
    else
      CountConcat(" WHERE ", Join(Sqls(cs), " AND "), '?');
      SqlQuery(" WHERE " + Join(Sqls(cs), " AND "), Params(cs))
  }

  /** The filters' contributions to the parameters: the status (or
      `approved`) first unless the status is `all`, then the category id,
      then the address pattern, then three copies of the search pattern. */
  lemma BuildQueryParams(f: PostFilters)
    ensures BuildQuery(f).params ==
      (if !Truthy(f.status) then ["approved"] else if f.status.value == "all" then [] else [f.status.value])
      + (if Truthy(f.category) then [f.category.value] else [])
      + (if Truthy(f.address) then ["%" + f.address.value + "%"] else [])
      + (if Truthy(f.search) then ["%" + f.search.value + "%", "%" + f.search.value + "%", "%" + f.search.value + "%"] else [])
  {
    var s := StatusConditions(f.status);
    var c := CategoryConditions(f.category);
    var a := AddressConditions(f.address);
    var q := SearchConditions(f.search);
    assert Conditions(f) == s + c + a + q;
    ParamsOne(s);
    ParamsOne(c);
    ParamsOne(a);
    ParamsOne(q);
    ParamsConcat(s, c);
    ParamsConcat(s + c, a);
    ParamsConcat(s + c + a, q);
  }

  lemma ParamsOne(cs: seq<Condition>)
    requires |cs| <= 1
    ensures Params(cs) == if cs == [] then [] else cs[0].params
  {
    if |cs| == 1 {
      assert Params(cs) == cs[0].params + Params([]);
    }
  }

  lemma {:induction false} ParamsConcat(xs: seq<Condition>, ys: seq<Condition>)
    ensures Params(xs + ys) == Params(xs) + Params(ys)
  {
    if |xs| > 0 {
      assert (xs + ys)[1..] == xs[1..] + ys;
      ParamsConcat(xs[1..], ys);
    } else {
      assert xs + ys == ys;
    }
  }

  /** `getPosts`: the rows the database returns for the built query, each
      with its `media` object. `run` is the database executing the query. */
  function GetPosts(db: Db, f: PostFilters, run: (Db, SqlQuery) -> seq<PostRow>): (r: Response)
    ensures r.status == 200 && r.body.PostListBody?
    ensures |r.body.posts| == |run(db, BuildQuery(f))|
    ensures forall i :: 0 <= i < |r.body.posts| ==>
              r.body.posts[i].row == run(db, BuildQuery(f))[i]
              && r.body.posts[i].media == MediaOf(r.body.posts[i].row.post.image)
  {
    var rows := run(db, BuildQuery(f));
    Response(200, PostListBody(seq(|rows|, i requires 0 <= i < |rows| => WithMedia(rows[i]))))
  }

  // ---------------------------------------------------------------------------
  // read one, read mine

  /** `getPostById`: the joined row (without media), or 404. */
  function GetPostById(db: Db, id: nat): (r: Response)
    ensures r.status == 200 <==> JoinPost(db, id).Some?
    ensures r.status == 200 ==> r.body == PostBody(JoinPost(db, id).value)
    ensures r.status != 200 ==> r == Say(404, "Post not found")
  {
    match JoinPost(db, id)
    case None => Say(404, "Post not found")
    case Some(row) => Response(200, PostBody(row))
  }

  function OwnedBy(userId: nat): Post -> bool {
    (p: Post) => p.userId == userId
  }

  /** `row` is the "my posts" row of its post: that post's title, content
      and address, and its category's name. */
  predicate ListsPost(db: Db, row: MyPostRow) {
    && Get(db.posts, row.id).Some?
    && var p := Get(db.posts, row.id).value;
       row == MyPostRow(row.id, p.title, p.content, p.address, CategoryName(db, p.categoryId))
  }

  function MyRow(db: Db, id: nat): (row: MyPostRow)
    requires Get(db.posts, id).Some?
    ensures row.id == id && ListsPost(db, row)
  {
    var p := Get(db.posts, id).value;
    MyPostRow(id, p.title, p.content, p.address, CategoryName(db, p.categoryId))
  }

  /** `getMyPosts`: every post of the principal, newest first (insertion
      order stands in for `created_at`), each with its category's name. */
  function GetMyPosts(db: Db, user: Principal): (r: Response)
    ensures r.status == 200 && r.body.MyPostsBody?
    ensures forall k: nat ::
              (exists i :: 0 <= i < |r.body.mine| && r.body.mine[i].id == k)
              <==> Get(db.posts, k).Some? && Get(db.posts, k).value.userId == user.id
    ensures forall i, j :: 0 <= i < j < |r.body.mine| ==> r.body.mine[i].id > r.body.mine[j].id
    ensures forall i :: 0 <= i < |r.body.mine| ==> ListsPost(db, r.body.mine[i])
  {
    var ids := SelectNewestFirst(db.posts, OwnedBy(user.id));
    var rows := seq(|ids|, i requires 0 <= i < |ids| =>
      assert ids[i] in ids;
      MyRow(db, ids[i]));
    forall i | 0 <= i < |rows|
      ensures rows[i].id == ids[i] && ListsPost(db, rows[i])
    {
    }
    forall k: nat
      ensures (exists i :: 0 <= i < |rows| && rows[i].id == k)
              <==> Get(db.posts, k).Some? && Get(db.posts, k).value.userId == user.id
    {
      assert Matches(db.posts, k, OwnedBy(user.id))
             <==> Get(db.posts, k).Some? && Get(db.posts, k).value.userId == user.id;
      if k in ids {
        var i :| 0 <= i < |ids| && ids[i] == k;
        assert rows[i].id == k;
      }
    }
    Response(200, MyPostsBody(rows))
  }

  // ---------------------------------------------------------------------------
  // update, status, delete

  datatype PostEdit = PostEdit(title: Option<string>, content: Option<string>, address: Option<string>)

  /** The post after the SET list: each truthy field replaced, the rest kept. */
  function Edited(p: Post, e: PostEdit): (q: Post)
    ensures q.userId == p.userId && q.image == p.image && q.categoryId == p.categoryId && q.status == p.status
    ensures !Truthy(e.title) && !Truthy(e.content) && !Truthy(e.address) ==> q == p
    ensures Truthy(e.title) ==> q.title == e.title.value
    ensures Truthy(e.content) ==> q.content == e.content.value
    ensures Truthy(e.address) ==> q.address == e.address
  {
    p.(title := if Truthy(e.title) then e.title.value else p.title,
       content := if Truthy(e.content) then e.content.value else p.content,
       address := if Truthy(e.address) then e.address else p.address)
  }

  /** `updatePost` (owner only, no admin override). */
  function UpdatePost(db: Db, user: Principal, id: nat, e: PostEdit): (r: Reply)
    ensures Get(db.posts, id).None? ==> r == Reply(Say(404, "Post not found"), db)
    ensures Get(db.posts, id).Some? && Get(db.posts, id).value.userId != user.id ==>
              r == Reply(Say(403, "Not authorized to edit this post"), db)
    ensures Get(db.posts, id).Some? && Get(db.posts, id).value.userId == user.id
            && !Truthy(e.title) && !Truthy(e.content) && !Truthy(e.address) ==>
              r == Reply(Say(400, "No fields to update"), db)
    ensures r.response.status == 200 <==>
              && Get(db.posts, id).Some? && Get(db.posts, id).value.userId == user.id
              && (Truthy(e.title) || Truthy(e.content) || Truthy(e.address))
    ensures r.response.status == 200 ==> r.response == Say(200, "Post updated")
    ensures r.response.status != 200 ==> r.db == db
    ensures r.response.status == 200 ==>
              && Get(db.posts, id).Some?
              && var before := Get(db.posts, id).value;
              && before.userId == user.id
              && r.db == db.(posts := r.db.posts)
              && (forall k: nat :: k != id ==> Get(r.db.posts, k) == Get(db.posts, k))
              && Get(r.db.posts, id).Some?
              && var after := Get(r.db.posts, id).value;
              && after.userId == before.userId && after.image == before.image
              && after.categoryId == before.categoryId && after.status == before.status
              && (Truthy(e.title) ==> after.title == e.title.value)
              && (!Truthy(e.title) ==> after.title == before.title)
              && (Truthy(e.content) ==> after.content == e.content.value)
              && (!Truthy(e.content) ==> after.content == before.content)
              && (Truthy(e.address) ==> after.address == e.address)
              && (!Truthy(e.address) ==> after.address == before.address)
  {
    match Get(db.posts, id)
    case None => Reply(Say(404, "Post not found"), db)
    case Some(p) =>
      if p.userId != user.id then Reply(Say(403, "Not authorized to edit this post"), db)
      else if !Truthy(e.title) && !Truthy(e.content) && !Truthy(e.address) then
        Reply(Say(400, "No fields to update"), db)
      else
        Reply(Say(200, "Post updated"), db.(posts := Update(db.posts, id, Edited(p, e))))
  }

  /** `updatePostStatus`. It takes no principal: it performs no role check. */
  function UpdatePostStatus(db: Db, id: nat, status: Option<string>): (r: Reply)
    ensures (status.None? || ParseStatus(status.value).None?) ==> r == Reply(Say(400, "Invalid status"), db)
    ensures status.Some? && ParseStatus(status.value).Some? && FindPostById(db, id).None? ==>
              r == Reply(Say(404, "Post not found"), db)
    ensures r.response.status == 200 <==>
              status.Some? && ParseStatus(status.value).Some? && FindPostById(db, id).Some?
    ensures r.response.status != 200 ==> r.db == db
    ensures r.response.status == 200 ==>
              && var p := Get(db.posts, id).value;
              && r.db == db.(posts := Update(db.posts, id, p.(status := ParseStatus(status.value).value)))
              && r.response.body.PostStatusBody?
              && r.response.body.updated.Some?
              && r.response.body.updated == FindPostById(r.db, id)
              && StatusName(r.response.body.updated.value.row.post.status) == status.value
  {
    if status.None? || ParseStatus(status.value).None? then Reply(Say(400, "Invalid status"), db)
    else
      match FindPostById(db, id)
      case None => Reply(Say(404, "Post not found"), db)
      case Some(found) =>
        var st := ParseStatus(status.value).value;
        ParseStatusIffName(status.value, st);
        var p := Get(db.posts, id).value;
        var db' := db.(posts := Update(db.posts, id, p.(status := st)));
        assert Get(db'.users, p.userId) == Get(db.users, p.userId);
        Reply(Response(200, PostStatusBody("Post status updated", FindPostById(db', id))), db')
  }

  /** `deletePost`: the owner, or a principal whose claims carry a truthy
      `isAdmin`. The role claim is not consulted. */
  function DeletePost(db: Db, user: Principal, id: nat): (r: Reply)
    ensures FindPostById(db, id).None? ==> r == Reply(Say(404, "Post not found"), db)
    ensures r.response.status == 200 <==>
              FindPostById(db, id).Some?
              && (Get(db.posts, id).value.userId == user.id || user.isAdmin)
    ensures FindPostById(db, id).Some? && Get(db.posts, id).value.userId != user.id && !user.isAdmin ==>
              r == Reply(Say(403, "Not authorized to delete this post"), db)
    ensures r.response.status == 200 ==> r == Reply(Say(200, "Post deleted"), db.(posts := Delete(db.posts, id)))
    ensures r.response.status != 200 ==> r.db == db
  {
    match FindPostById(db, id)
    case None => Reply(Say(404, "Post not found"), db)
    case Some(found) =>
      if found.row.post.userId != user.id && !user.isAdmin then
        Reply(Say(403, "Not authorized to delete this post"), db)
      else
        Reply(Say(200, "Post deleted"), db.(posts := Delete(db.posts, id)))
  }
}

=== FILE: routes.dfy ===
/** The middleware chains the route files put in front of each handler, and
    what running a chain on a request decides. */
module Routes {
  import opened Common
  import opened Strings
  import opened Schema
  import opened Http
  import opened AuthMiddleware

  /** Every route of the post, admin, category, comment and user routers. */
  datatype Endpoint =
    // post router
    | CreatePostRoute | ListPostsRoute | MyPostsRoute | ShowPostRoute
    | SetPostStatusRoute | EditPostRoute | RemovePostRoute
    // admin router
    | ListUsersRoute | RemoveUserRoute | SetUserRoleRoute
    // category router
    | ListCategoriesRoute | AddCategoryRoute | RenameCategoryRoute | RemoveCategoryRoute
    // comment router
    | AddCommentRoute | ListCommentsRoute | RemoveCommentRoute
    // user router
    | DashboardRoute | ShowProfileRoute | EditProfileRoute

  /** A middleware in front of a handler. */
  datatype Guard = TokenGuard | RoleGuard(role: string)

  /** The chains as the route files register them, in order. */
  function Chain(e: Endpoint): (guards: seq<Guard>)
    ensures guards == [] || guards[0] == TokenGuard
    ensures forall i :: 0 <= i < |guards| ==> guards[i] in {TokenGuard, RoleGuard("admin")}
    ensures forall i :: 1 <= i < |guards| ==> guards[i] == RoleGuard("admin")
  {
    match e
    case CreatePostRoute => [TokenGuard]
    case ListPostsRoute => []
    case MyPostsRoute => [TokenGuard]
    case ShowPostRoute => []
    case SetPostStatusRoute => [TokenGuard]
    case EditPostRoute => [TokenGuard]
    case RemovePostRoute => [TokenGuard]
    case ListUsersRoute => [TokenGuard, RoleGuard("admin")]
    case RemoveUserRoute => [TokenGuard, RoleGuard("admin")]
    case SetUserRoleRoute => [TokenGuard, RoleGuard("admin")]
    case ListCategoriesRoute => []
    case AddCategoryRoute => [TokenGuard, RoleGuard("admin")]
    case RenameCategoryRoute => [TokenGuard, RoleGuard("admin")]
    case RemoveCategoryRoute => [TokenGuard, RoleGuard("admin")]
    case AddCommentRoute => [TokenGuard]
    case ListCommentsRoute => []
    case RemoveCommentRoute => [TokenGuard]
    case DashboardRoute => [TokenGuard]
    case ShowProfileRoute => [TokenGuard]
    case EditProfileRoute => [TokenGuard]
  }

  /** Who may reach a handler. */
  datatype Access = Public | SignedIn | AdminOnly

  /** The access policy route by route: reads of posts, categories and
      comments are public; the admin router and category writes are for
      admins; everything else needs a signed-in principal. The post status
      change is among the signed-in routes. */
  function AccessOf(e: Endpoint): Access {
    if e in {ListPostsRoute, ShowPostRoute, ListCategoriesRoute, ListCommentsRoute} then Public
    else if e in {ListUsersRoute, RemoveUserRoute, SetUserRoleRoute,
                  AddCategoryRoute, RenameCategoryRoute, RemoveCategoryRoute} then AdminOnly
    else SignedIn
  }

  /** What the chain decides: stop with a response, or call the handler with
      `req.user` as the chain left it. */
  datatype Decision = Reject(response: Response) | Admit(user: Option<Principal>)

  /** Runs the guards in order; the first one that answers ends the chain. */
  function RunChain(guards: seq<Guard>, header: Option<string>, verify: string -> Option<Principal>,
                    user: Option<Principal>): (d: Decision)
    ensures guards == [] ==> d == Admit(user)
    ensures |guards| > 0 && guards[0] == TokenGuard ==>
              match VerifyToken(header, verify)
              case Deny(response) => d == Reject(response)
              case Pass(p) => d == RunChain(guards[1..], header, verify, Some(p))
    ensures |guards| > 0 && guards[0].RoleGuard? ==>
              match RequireRole(guards[0].role, user)
              case Stop(response) => d == Reject(response)
              case Next => d == RunChain(guards[1..], header, verify, user)
    ensures d.Admit? && (user.Some? || TokenGuard in guards) ==> d.user.Some?
    ensures d.Reject? ==> d.response.status in {401, 403}
  {
    if |guards| == 0 then Admit(user)
    else
      match guards[0]
      case TokenGuard =>
        (match VerifyToken(header, verify)
         case Deny(response) => Reject(response)
         case Pass(p) => RunChain(guards[1..], header, verify, Some(p)))
      case RoleGuard(role) =>
        assert TokenGuard in guards ==> TokenGuard in guards[1..];
        (match RequireRole(role, user)
         case Stop(response) => Reject(response)
         case Next => RunChain(guards[1..], header, verify, user))
  }

  /** The chains registered in the route files are the ones the access
      policy calls for: none, a token check, or a token check followed by
      `requireRole('admin')`. */
  lemma ChainFollowsPolicy(e: Endpoint)
    ensures Chain(e) == match AccessOf(e)
                        case Public => []
                        case SignedIn => [TokenGuard]
                        case AdminOnly => [TokenGuard, RoleGuard("admin")]
  {
  }

  /** The chain of `e` on a request carrying `header`; `req.user` starts out
      unset. */
  function Authorize(e: Endpoint, header: Option<string>, verify: string -> Option<Principal>): (d: Decision)
    ensures AccessOf(e) == Public ==> d == Admit(None)
    ensures AccessOf(e) != Public ==>
              && (VerifyToken(header, verify).Deny? ==> d == Reject(VerifyToken(header, verify).response))
              && (VerifyToken(header, verify).Pass? ==>
                    var p := VerifyToken(header, verify).principal;
                    if AccessOf(e) == AdminOnly && p.role != "admin" then d == Reject(Fail(403, "Forbidden"))
                    else d == Admit(Some(p)))
  {
    ChainFollowsPolicy(e);
    AdminStep(header, verify);
    assert AccessOf(e) == AdminOnly ==> Chain(e)[1..] == [RoleGuard("admin")];
    assert AccessOf(e) == SignedIn ==> Chain(e)[1..] == [];
    RunChain(Chain(e), header, verify, None)
  }

  /** After a passing token check, `requireRole('admin')` admits an admin
      principal and answers 403 to any other. */
  lemma AdminStep(header: Option<string>, verify: string -> Option<Principal>)
    ensures VerifyToken(header, verify).Pass? ==>
              var p := VerifyToken(header, verify).principal;
              RunChain([RoleGuard("admin")], header, verify, Some(p))
                == if p.role != "admin" then Reject(Fail(403, "Forbidden")) else Admit(Some(p))
  {
    assert [RoleGuard("admin")][1..] == [];
  }

  /** A request the chain admits to a non-public route carries a principal,
      and one admitted to an admin route carries the role `admin`. */
  lemma AdmittedPrincipal(e: Endpoint, header: Option<string>, verify: string -> Option<Principal>)
    requires AccessOf(e) != Public && Authorize(e, header, verify).Admit?
    ensures Authorize(e, header, verify).user.Some?
    ensures AccessOf(e) == AdminOnly ==> Authorize(e, header, verify).user.value.role == "admin"
  {
  }

  /** Token checks come first: a request without a usable token is answered
      401 on every non-public route, never 403. */
  lemma NoTokenMeans401(e: Endpoint, header: Option<string>, verify: string -> Option<Principal>)
    requires AccessOf(e) != Public
    requires BearerToken(header).None? || verify(BearerToken(header).value).None?
    ensures Authorize(e, header, verify).Reject?
    ensures Authorize(e, header, verify).response.status == 401
  {
  }

  /** `GET /dashboard`: greets the principal by id and echoes its claims. */
  function Dashboard(user: Principal): (r: Response)
    ensures r.status == 200 && r.body.DashboardBody?
    ensures r.body.principal == user
    ensures StartsWith(r.body.message, "Welcome user ")
    ensures ParseNat(r.body.message[|"Welcome user "|..]) == Some(user.id)
  {
    var message := "Welcome user " + NatToString(user.id);
    ParseNatToString(user.id);
    assert message[|"Welcome user "|..] == NatToString(user.id);
    Response(200, DashboardBody(message, user))
  }
}

=== FILE: scenarios.dfy ===
/** End-to-end consequences of the pieces together: tokens minted by the
    account handlers, read back by `verifyToken`, passed through the route
    chains into the handlers. Three of them are the system's quirks: an
    admin cannot delete another user's post, any signed-in user can change
    a post's status, and anyone can register as an admin. */
module Scenarios {
  import opened Common
  import opened Tables
  import opened Schema
  import opened Http
  import opened Token
  import opened AuthMiddleware
  import opened AuthController
  import opened PostController
  import opened UserController
  import opened Routes

  /** `jwt.verify` with the process key at clock `now`, throwing (`None`) on
      every failure. */
  function Verifier(key: Key, now: nat): string -> Option<Principal> {
    (t: string) => Verify(key, t, now).ToOption()
  }

  /** The `Authorization` header a client sends with a token. */
  function BearerHeader(token: string): Option<string> {
    Some(Scheme + token)
  }

  /** A token this system issued, sent back before it expires, passes
      `verifyToken` with exactly the claims it was issued with. */
  lemma IssuedTokenPasses(key: Key, id: nat, role: Role, iat: nat, now: nat)
    requires now < iat + Lifetime
    ensures VerifyToken(BearerHeader(Sign(key, id, role, iat)), Verifier(key, now))
            == Pass(Payload(id, role, iat))
  {
    var token := Sign(key, id, role, iat);
    SignedTokenIsOneWord(key, id, role, iat);
    BearerTokenAccepts(BearerHeader(token), token);
    SignVerify(key, id, role, iat, now);
  }

  /** The same token after its expiry is refused with 401. */
  lemma ExpiredTokenRefused(key: Key, id: nat, role: Role, iat: nat, now: nat)
    requires iat + Lifetime <= now
    ensures VerifyToken(BearerHeader(Sign(key, id, role, iat)), Verifier(key, now))
            == Deny(Fail(401, "Invalid or expired token"))
  {
    var token := Sign(key, id, role, iat);
    SignedTokenIsOneWord(key, id, role, iat);
    BearerTokenAccepts(BearerHeader(token), token);
    SignVerify(key, id, role, iat, now);
  }

  /** Holding an admin token does not let a principal delete someone else's
      post: the delete handler asks for `isAdmin`, which no issued token
      carries, so the request gets 403 and the post stays. */
  lemma AdminCannotDeleteOthersPost(db: Db, key: Key, adminId: nat, iat: nat, now: nat, postId: nat)
    requires now < iat + Lifetime
    requires FindPostById(db, postId).Some? && Get(db.posts, postId).value.userId != adminId
    ensures var header := BearerHeader(Sign(key, adminId, AdminRole, iat));
            var d := Authorize(RemovePostRoute, header, Verifier(key, now));
            && d == Admit(Some(Payload(adminId, AdminRole, iat)))
            && DeletePost(db, d.user.value, postId) == Reply(Say(403, "Not authorized to delete this post"), db)
  {
    IssuedTokenPasses(key, adminId, AdminRole, iat, now);
    var p := Payload(adminId, AdminRole, iat);
    assert Authorize(RemovePostRoute, BearerHeader(Sign(key, adminId, AdminRole, iat)), Verifier(key, now))
           == Admit(Some(p));
    assert !p.isAdmin && p.id == adminId;
  }

  /** A plain user's token reaches the status-change handler, which changes
      the status of any post, the user's own or not. */
  lemma AnyUserSetsPostStatus(db: Db, key: Key, userId: nat, iat: nat, now: nat, postId: nat, status: string)
    requires now < iat + Lifetime
    requires ParseStatus(status).Some? && FindPostById(db, postId).Some?
    ensures var header := BearerHeader(Sign(key, userId, UserRole, iat));
            && Authorize(SetPostStatusRoute, header, Verifier(key, now)) == Admit(Some(Payload(userId, UserRole, iat)))
            && UpdatePostStatus(db, postId, Some(status)).response.status == 200
            && Get(UpdatePostStatus(db, postId, Some(status)).db.posts, postId).value.status == ParseStatus(status).value
  {
    IssuedTokenPasses(key, userId, UserRole, iat, now);
  }

  /** A plain user's token is refused with 403 on every admin route. */
  lemma UserBarredFromAdminRoutes(e: Endpoint, key: Key, userId: nat, iat: nat, now: nat)
    requires AccessOf(e) == AdminOnly && now < iat + Lifetime
    ensures Authorize(e, BearerHeader(Sign(key, userId, UserRole, iat)), Verifier(key, now))
            == Reject(Fail(403, "Forbidden"))
  {
    IssuedTokenPasses(key, userId, UserRole, iat, now);
  }

  /** Registering with `role: 'admin'` yields a token that opens every admin
      route until it expires. */
  lemma SelfRegisteredAdminPasses(db: Db, b: RegisterBody, env: AccountEnv, e: Endpoint, now: nat)
    requires b.role == Some("admin") && Register(db, b, env).response.status == 201
    requires AccessOf(e) == AdminOnly && now < env.now + Lifetime
    ensures var token := Register(db, b, env).response.body.token;
            Authorize(e, BearerHeader(token), Verifier(env.key, now))
            == Admit(Some(Payload(NextId(db.users), AdminRole, env.now)))
  {
    assert RequestedRole(b) == AdminRole;
    IssuedTokenPasses(env.key, NextId(db.users), AdminRole, env.now, now);
  }

  /** Roles live in the token: demoting an admin in the store leaves the
      tokens already issued to it opening admin routes until they expire. */
  lemma DemotedAdminKeepsAccess(db: Db, key: Key, id: nat, iat: nat, now: nat, e: Endpoint)
    requires Get(db.users, id).Some? && AccessOf(e) == AdminOnly && now < iat + Lifetime
    ensures ChangeUserRole(db, id, Some("user")).response.status == 200
    ensures Get(ChangeUserRole(db, id, Some("user")).db.users, id).value.role == UserRole
    ensures Authorize(e, BearerHeader(Sign(key, id, AdminRole, iat)), Verifier(key, now))
            == Admit(Some(Payload(id, AdminRole, iat)))
  {
    IssuedTokenPasses(key, id, AdminRole, iat, now);
  }
}

=== FILE: schema.dfy ===
/** The rows of the four tables, the enumerated columns, the whole store,
    and the request principal. */
module Schema {
  import opened Common
  import opened Tables
  import opened Password

  /** `users.role`, `ENUM('user','admin')`. */
  datatype Role = UserRole | AdminRole

  function RoleName(r: Role): string {
    match r
    case UserRole => "user"
    case AdminRole => "admin"
  }

  /** `['user', 'admin'].includes(s)`, yielding the role it names. */
  function ParseRole(s: string): Option<Role> {
    if s == "user" then Some(UserRole)
    else if s == "admin" then Some(AdminRole)
    else None
  }

  lemma ParseRoleIffName(s: string, r: Role)
    ensures ParseRole(s) == Some(r) <==> RoleName(r) == s
  {
  }

  /** `posts.status`. */
  datatype Status = Pending | Approved | Rejected | Open | InProgress | Closed

  function StatusName(st: Status): string {
    match st
    case Pending => "pending"
    case Approved => "approved"
    case Rejected => "rejected"
    case Open => "open"
    case InProgress => "in_progress"
    case Closed => "closed"
  }

  /** `validStatuses.includes(s)` in `updatePostStatus`, yielding the status
      it names. */
  function ParseStatus(s: string): Option<Status> {
    if s == "pending" then Some(Pending)
    else if s == "approved" then Some(Approved)
    else if s == "rejected" then Some(Rejected)
    else if s == "open" then Some(Open)
    else if s == "in_progress" then Some(InProgress)
    else if s == "closed" then Some(Closed)
    else None
  }

  lemma ParseStatusIffName(s: string, st: Status)
    ensures ParseStatus(s) == Some(st) <==> StatusName(st) == s
  {
  }

  datatype User = User(
    username: string,
    email: string,
    password: Digest,
    role: Role,
    fullName: Option<string>,
    phone: Option<string>,
    address: Option<string>)

  datatype Post = Post(
    userId: nat,
    title: string,
    content: string,
    image: Option<string>,
    categoryId: nat,
    status: Status,
    address: Option<string>)

  datatype Comment = Comment(postId: nat, userId: nat, content: string)

  datatype Category = Category(name: string)

  /** The whole store. */
  datatype Db = Db(
    users: Table<User>,
    posts: Table<Post>,
    comments: Table<Comment>,
    categories: Table<Category>)

  /** `req.user`: the claim set a verified token decodes to, `iat` and `exp`
      included. `isAdmin` stands for a truthy `isAdmin` claim, which the
      owner-or-admin checks read. */
  datatype Principal = Principal(id: nat, role: string, iat: nat, exp: nat, isAdmin: bool)

  /** The `WHERE email = ?` filter. */
  function WithEmail(email: string): User -> bool {
    (u: User) => u.email == email
  }

  /** The `WHERE username = ?` filter. */
  function WithUsername(username: string): User -> bool {
    (u: User) => u.username == username
  }

  /** Some row of `users` has this email. */
  ghost predicate EmailTaken(users: Table<User>, email: string) {
    exists k: nat :: Get(users, k).Some? && Get(users, k).value.email == email
  }

  /** Some row of `users` has this username. */
  ghost predicate UsernameTaken(users: Table<User>, username: string) {
    exists k: nat :: Get(users, k).Some? && Get(users, k).value.username == username
  }

  /** No two accounts share an email or a username: what the two checks in
      `register` keep. */
  ghost predicate UniqueAccounts(users: Table<User>) {
    forall i: nat, j: nat ::
      Get(users, i).Some? && Get(users, j).Some? && i != j ==>
        Get(users, i).value.email != Get(users, j).value.email
        && Get(users, i).value.username != Get(users, j).value.username
  }
}

=== FILE: strings.dfy ===
/** The JavaScript string operations the handlers rely on: `startsWith`,
    `split` on one character, `join`, `trim`, decimal rendering of ids and
    timestamps, and the code-point order used to sort names. */
module Strings {
  import opened Common

  predicate StartsWith(s: string, prefix: string) {
    |prefix| <= |s| && s[..|prefix|] == prefix
  }

  // ---------------------------------------------------------------------------
  // split / join

  /** `s.split(sep)` for a one-character separator: the separator-free pieces
      between separators, in order, empty pieces included. */
  function Split(s: string, sep: char): (parts: seq<string>)
    ensures |parts| > 0
    ensures forall i :: 0 <= i < |parts| ==> sep !in parts[i]
  {
    if |s| == 0 then [""]
    else
      var rest := Split(s[1..], sep);
      if s[0] == sep then [""] + rest
      else [[s[0]] + rest[0]] + rest[1..]
  }

  /** `parts.join(sep)`; the empty list joins to the empty string. */
  function Join(parts: seq<string>, sep: string): string {
    if |parts| == 0 then ""
    else if |parts| == 1 then parts[0]
    else parts[0] + sep + Join(parts[1..], sep)
  }

  /** Splitting and joining back with the same separator restores the string. */
  lemma {:induction false} JoinSplit(s: string, sep: char)
    ensures Join(Split(s, sep), [sep]) == s
  {
    if |s| > 0 {
      var rest := Split(s[1..], sep);
      JoinSplit(s[1..], sep);
      var parts := Split(s, sep);
      if s[0] == sep {
        assert parts == [""] + rest;
        assert parts[1..] == rest;
      } else {
        assert parts == [[s[0]] + rest[0]] + rest[1..];
        if |rest| > 1 {
          assert parts[1..] == rest[1..];
        }
      }
      assert s == [s[0]] + s[1..];
    }
  }

  lemma {:induction false} SplitNoSeparator(a: string, sep: char)
    requires sep !in a
    ensures Split(a, sep) == [a]
  {
    if |a| > 0 {
      SplitNoSeparator(a[1..], sep);
      assert [a[0]] + a[1..] == a;
    }
  }

  lemma {:induction false} SplitAtSeparator(a: string, sep: char, b: string)
    requires sep !in a
    ensures Split(a + [sep] + b, sep) == [a] + Split(b, sep)
  {
    var s := a + [sep] + b;
    if |a| == 0 {
      assert s[0] == sep && s[1..] == b;
    } else {
      assert s[0] == a[0] && s[1..] == a[1..] + [sep] + b;
      SplitAtSeparator(a[1..], sep, b);
      assert [a[0]] + a[1..] == a;
    }
  }

  /** A separator followed by a separator-free tail ends the split with that
      tail. */
  lemma {:induction false} SplitBeforeLast(a: string, sep: char, b: string)
    requires sep !in b
    ensures Split(a + [sep] + b, sep) == Split(a, sep) + [b]
  {
    var s := a + [sep] + b;
    if |a| == 0 {
      assert s == [sep] + b;
      assert s[0] == sep && s[1..] == b;
      SplitNoSeparator(b, sep);
    } else {
      assert s[0] == a[0] && s[1..] == a[1..] + [sep] + b;
      SplitBeforeLast(a[1..], sep, b);
      var rest := Split(a[1..], sep);
      if a[0] != sep {
        assert (rest + [b])[0] == rest[0];
        assert (rest + [b])[1..] == rest[1..] + [b];
      }
    }
  }

  /** Joining separator-free pieces and splitting again gives the pieces back. */
  lemma {:induction false} SplitJoin(parts: seq<string>, sep: char)
    requires |parts| > 0
    requires forall i :: 0 <= i < |parts| ==> sep !in parts[i]
    ensures Split(Join(parts, [sep]), sep) == parts
  {
    if |parts| == 1 {
      SplitNoSeparator(parts[0], sep);
    } else {
      SplitJoin(parts[1..], sep);
      SplitAtSeparator(parts[0], sep, Join(parts[1..], [sep]));
      assert [parts[0]] + parts[1..] == parts;
    }
  }

  /** Appending a last piece appends the separator and that piece. */
  lemma {:induction false} JoinAppend(parts: seq<string>, last: string, sep: string)
    requires |parts| > 0
    ensures Join(parts + [last], sep) == Join(parts, sep) + sep + last
  {
    if |parts| == 1 {
      assert (parts + [last])[1..] == [last];
    } else {
      assert (parts + [last])[1..] == parts[1..] + [last];
      JoinAppend(parts[1..], last, sep);
    }
  }

  // ---------------------------------------------------------------------------
  // counting characters

  /** Number of occurrences of `c` in `s`. */
  function Count(s: string, c: char): (n: nat)
    ensures n <= |s|
    ensures n == 0 <==> c !in s
  {
    if |s| == 0 then 0 else (if s[0] == c then 1 else 0) + Count(s[1..], c)
  }

  lemma {:induction false} CountConcat(a: string, b: string, c: char)
    ensures Count(a + b, c) == Count(a, c) + Count(b, c)
  {
    if |a| == 0 {
      assert a + b == b;
    } else {
      assert (a + b)[1..] == a[1..] + b;
      CountConcat(a[1..], b, c);
    }
  }

  /** The length validator.js's `isLength` measures: code points, leaving
      out the variation selectors U+FE0E and U+FE0F. */
  function PresentationLength(s: string): (n: int)
    ensures n <= |s|
    ensures '\U{FE0E}' !in s && '\U{FE0F}' !in s ==> n == |s|
  {
    |s| - Count(s, '\U{FE0E}') - Count(s, '\U{FE0F}')
  }

  /** Appending a character adds one to the measure unless it is one of the
      two variation selectors. */
  lemma {:induction false} PresentationLengthAppend(s: string, c: char)
    ensures PresentationLength(s + [c])
            == PresentationLength(s) + (if c == '\U{FE0E}' || c == '\U{FE0F}' then 0 else 1)
  {
    CountConcat(s, [c], '\U{FE0E}');
    CountConcat(s, [c], '\U{FE0F}');
  }

  // ---------------------------------------------------------------------------
  // decimal numbers

  predicate IsDigit(c: char) {
    48 <= c as int <= 57
  }

  function DigitChar(d: nat): (c: char)
    requires d < 10
    ensures IsDigit(c)
  {
    (48 + d) as char
  }

  /** The decimal rendering of `n`, as JavaScript's string conversion
      produces it for ids and timestamps (integers below 10^21; larger ones
      JavaScript writes in exponent form). */
  function NatToString(n: nat): (s: string)
    ensures |s| > 0
    ensures forall i :: 0 <= i < |s| ==> IsDigit(s[i])
  {
    if n < 10 then [DigitChar(n)] else NatToString(n / 10) + [DigitChar(n % 10)]
  }

  function DigitsValue(s: string): nat
    requires forall i :: 0 <= i < |s| ==> IsDigit(s[i])
  {
    if |s| == 0 then 0
    else
      assert IsDigit(s[|s| - 1]);
      DigitsValue(s[..|s| - 1]) * 10 + (s[|s| - 1] as int - 48)
  }

  /** A non-empty run of decimal digits, read as a number; anything else is
      not a number. */
  function ParseNat(s: string): Option<nat> {
    if |s| > 0 && forall i :: 0 <= i < |s| ==> IsDigit(s[i]) then Some(DigitsValue(s)) else None
  }

  lemma {:induction false} ParseNatToString(n: nat)
    ensures ParseNat(NatToString(n)) == Some(n)
  {
    if n >= 10 {
      ParseNatToString(n / 10);
      var s := NatToString(n);
      assert s[..|s| - 1] == NatToString(n / 10);
      assert s[|s| - 1] as int == 48 + n % 10;
      assert DigitsValue(s) == (n / 10) * 10 + n % 10;
    }
  }

  // ---------------------------------------------------------------------------
  // trimming

  /** The characters JavaScript's `\s` class (and so `String.prototype.trim`)
      treats as white space. */
  predicate IsWhitespace(c: char) {
    var n := c as int;
    || (9 <= n <= 13) || n == 32 || n == 0xA0 || n == 0x1680
    || (0x2000 <= n <= 0x200A) || n == 0x2028 || n == 0x2029
    || n == 0x202F || n == 0x205F || n == 0x3000 || n == 0xFEFF
  }

  predicate Blank(s: string) {
    forall i :: 0 <= i < |s| ==> IsWhitespace(s[i])
  }

  /** Drops leading white space: the result is the longest suffix of `s` that
      does not start with white space. */
  function TrimStart(s: string): (r: string)
    ensures |r| <= |s| && r == s[|s| - |r|..]
    ensures r == "" || !IsWhitespace(r[0])
    ensures forall i :: 0 <= i < |s| - |r| ==> IsWhitespace(s[i])
  {
    if |s| > 0 && IsWhitespace(s[0]) then
      var r := TrimStart(s[1..]);
      assert s[1..][|s| - 1 - |r|..] == s[|s| - |r|..];
      assert forall i :: 1 <= i < |s| - |r| ==> s[i] == s[1..][i - 1];
      r
    else s
  }

  /** Drops trailing white space: the result is the longest prefix of `s`
      that does not end with white space. */
  function TrimEnd(s: string): (r: string)
    ensures |r| <= |s| && r == s[..|r|]
    ensures r == "" || !IsWhitespace(r[|r| - 1])
    ensures forall i :: |r| <= i < |s| ==> IsWhitespace(s[i])
  {
    if |s| > 0 && IsWhitespace(s[|s| - 1]) then
      var r := TrimEnd(s[..|s| - 1]);
      assert s[..|s| - 1][..|r|] == s[..|r|];
      assert forall i :: |r| <= i < |s| - 1 ==> s[i] == s[..|s| - 1][i];
      r
    else s
  }

  /** `String.prototype.trim`. */
  function Trim(s: string): string {
    TrimEnd(TrimStart(s))
  }

  /** Trimming leaves nothing exactly when the string is all white space. */
  lemma TrimEmptyIffBlank(s: string)
    ensures Trim(s) == "" <==> Blank(s)
  {
    var t := TrimStart(s);
    var k := |s| - |t|;
    if t != "" {
      assert s[k] == t[0];
    }
  }

  // ---------------------------------------------------------------------------
  // ordering

  /** Lexicographic order on code points (`a` sorts no later than `b`). */
  predicate LexLe(a: string, b: string) {
    |a| == 0 || (|b| > 0 && (a[0] < b[0] || (a[0] == b[0] && LexLe(a[1..], b[1..]))))
  }

  lemma {:induction false} LexLeTotal(a: string, b: string)
    ensures LexLe(a, b) || LexLe(b, a)
  {
    if |a| > 0 && |b| > 0 && a[0] == b[0] {
      LexLeTotal(a[1..], b[1..]);
    }
  }

  lemma {:induction false} LexLeTransitive(a: string, b: string, c: string)
    requires LexLe(a, b) && LexLe(b, c)
    ensures LexLe(a, c)
  {
    if |a| > 0 && a[0] == b[0] && b[0] == c[0] {
      LexLeTransitive(a[1..], b[1..], c[1..]);
    }
  }
}

=== FILE: tables.dfy ===
/** A relational table reduced to what the handlers use: lookup by primary
    key, single-row INSERT / UPDATE / DELETE, and a scan in key order. */
module Tables {
  import opened Common

  /** A table whose primary key is AUTO_INCREMENT starting at 1. The row with
      id k sits in slot k - 1; DELETE empties the slot, so ids are never
      handed out twice. */
  datatype Table<T> = Table(slots: seq<Option<T>>)

  /** `SELECT ... WHERE id = ?`: the row with that id, if any. */
  function Get<T>(t: Table<T>, id: nat): Option<T> {
    if 1 <= id <= |t.slots| then t.slots[id - 1] else None
  }

  /** The id the next INSERT receives (`insertId`): it is positive, no row
      holds it, and it is larger than every id in use. */
  function NextId<T>(t: Table<T>): (id: nat)
    ensures id > 0 && Get(t, id) == None
    ensures forall k: nat :: Get(t, k).Some? ==> k < id
  {
    |t.slots| + 1
  }

  /** INSERT: exactly one new row, under the fresh id. */
  function Insert<T>(t: Table<T>, row: T): (r: Table<T>)
    ensures Get(r, NextId(t)) == Some(row)
    ensures forall k: nat :: k != NextId(t) ==> Get(r, k) == Get(t, k)
    ensures NextId(r) == NextId(t) + 1
  {
    Table(t.slots + [Some(row)])
  }

  /** UPDATE of an existing row: that row is replaced, every other row stays. */
  function Update<T>(t: Table<T>, id: nat, row: T): (r: Table<T>)
    requires Get(t, id).Some?
    ensures Get(r, id) == Some(row)
    ensures forall k: nat :: k != id ==> Get(r, k) == Get(t, k)
    ensures NextId(r) == NextId(t)
  {
    Table(t.slots[id - 1 := Some(row)])
  }

  /** DELETE: afterwards no row has that id, every other row stays. */
  function Delete<T>(t: Table<T>, id: nat): (r: Table<T>)
    ensures Get(r, id) == None
    ensures forall k: nat :: k != id ==> Get(r, k) == Get(t, k)
    ensures NextId(r) == NextId(t)
  {
    if 1 <= id <= |t.slots| then Table(t.slots[id - 1 := None]) else t
  }

  /** The row with id `k` exists and satisfies `p`. */
  predicate Matches<T>(t: Table<T>, k: nat, p: T -> bool) {
    Get(t, k).Some? && p(Get(t, k).value)
  }

  /** `rows[0]` of a `SELECT ... WHERE p`: the lowest id whose row satisfies
      `p`, the model returning rows in primary-key order where the query
      has no ORDER BY. */
  function FindFirst<T>(t: Table<T>, p: T -> bool): (r: Option<nat>)
    ensures r.Some? ==> Matches(t, r.value, p)
    ensures r.Some? ==> forall k: nat :: k < r.value ==> !Matches(t, k, p)
    ensures r.None? <==> forall k: nat :: !Matches(t, k, p)
  {
    FindFrom(t, p, 1)
  }

  function FindFrom<T>(t: Table<T>, p: T -> bool, from: nat): (r: Option<nat>)
    requires from >= 1
    ensures r.Some? ==> from <= r.value && Matches(t, r.value, p)
    ensures r.Some? ==> forall k: nat :: from <= k < r.value ==> !Matches(t, k, p)
    ensures r.None? ==> forall k: nat :: from <= k ==> !Matches(t, k, p)
    decreases |t.slots| + 1 - from
  {
    if from > |t.slots| then None
    else if Matches(t, from, p) then Some(from)
    else FindFrom(t, p, from + 1)
  }

  /** The ids of the rows among 1..n satisfying `p`, in ascending order. */
  function SelectUp<T>(t: Table<T>, p: T -> bool, n: nat): (ids: seq<nat>)
    ensures forall k: nat :: k in ids <==> 1 <= k <= n && Matches(t, k, p)
    ensures forall i, j :: 0 <= i < j < |ids| ==> ids[i] < ids[j]
  {
    if n == 0 then []
    else
      var rest := SelectUp(t, p, n - 1);
      assert forall i :: 0 <= i < |rest| ==> rest[i] in rest;
      if Matches(t, n, p) then rest + [n] else rest
  }

  /** The ids of the rows among 1..n satisfying `p`, in descending order. */
  function SelectDown<T>(t: Table<T>, p: T -> bool, n: nat): (ids: seq<nat>)
    ensures forall k: nat :: k in ids <==> 1 <= k <= n && Matches(t, k, p)
    ensures forall i, j :: 0 <= i < j < |ids| ==> ids[i] > ids[j]
  {
    if n == 0 then []
    else
      var rest := SelectDown(t, p, n - 1);
      assert forall i :: 0 <= i < |rest| ==> rest[i] in rest;
      if Matches(t, n, p) then [n] + rest else rest
  }

  /** `SELECT ... WHERE p`; without an ORDER BY the database promises no
      order, and the model takes primary-key order. */
  function Select<T>(t: Table<T>, p: T -> bool): (ids: seq<nat>)
    ensures forall k: nat :: k in ids <==> Matches(t, k, p)
    ensures forall i, j :: 0 <= i < j < |ids| ==> ids[i] < ids[j]
  {
    SelectUp(t, p, |t.slots|)
  }

  /** `SELECT ... WHERE p`, newest row first. */
  function SelectNewestFirst<T>(t: Table<T>, p: T -> bool): (ids: seq<nat>)
    ensures forall k: nat :: k in ids <==> Matches(t, k, p)
    ensures forall i, j :: 0 <= i < j < |ids| ==> ids[i] > ids[j]
  {
    SelectDown(t, p, |t.slots|)
  }
}

=== FILE: token.dfy ===
/** The signed, time-bounded credential (the role `jsonwebtoken` plays). A
    token is the dotted list `id.role.iat.exp.sig`; `sig` is the decimal
    rendering of a keyed MAC of the four claim fields under the process
    secret. The MAC is a parameter: no property below depends on which one. */
module Token {
  import opened Common
  import opened Strings
  import opened Schema

  /** `expiresIn: '7d'`, in seconds. */
  const Lifetime: nat := 7 * 24 * 60 * 60

  /** The process-wide secret and the MAC it keys. */
  datatype Key = Key(secret: string, mac: (string, string) -> nat)

  /** The outcome of verification; the three failures are told apart for
      observability and collapse into one HTTP answer. */
  datatype Decoded = Valid(principal: Principal) | Malformed | BadSignature | Expired {
    function ToOption(): Option<Principal> {
      match this
      case Valid(p) => Some(p)
      case _ => None
    }
  }

  /** The claim fields of a token for (id, role) issued at `iat`. */
  function Claims(id: nat, role: Role, iat: nat): seq<string> {
    [NatToString(id), RoleName(role), NatToString(iat), NatToString(iat + Lifetime)]
  }

  function Signature(key: Key, payload: string): string {
    NatToString(key.mac(key.secret, payload))
  }

  /** The token made of the claim fields `claims` and their signature. */
  function Signed(key: Key, claims: seq<string>): string {
    Join(claims + [Signature(key, Join(claims, "."))], ".")
  }

  /** The claim set `jwt.verify` yields for a token signed for (id, role) at
      `iat`: what was signed plus the `iat` and `exp` the library adds. */
  function Payload(id: nat, role: Role, iat: nat): Principal {
    Principal(id, RoleName(role), iat, iat + Lifetime, false)
  }

  /** `jwt.sign({ id, role }, secret, { expiresIn: '7d' })` at clock `iat`. */
  function Sign(key: Key, id: nat, role: Role, iat: nat): (t: string)
    ensures var claims := Claims(id, role, iat);
            Split(t, '.') == claims + [Signature(key, Join(claims, "."))]
  {
    var claims := Claims(id, role, iat);
    var parts := claims + [Signature(key, Join(claims, "."))];
    DigitsHaveNo(id, '.');
    DigitsHaveNo(iat, '.');
    DigitsHaveNo(iat + Lifetime, '.');
    DigitsHaveNo(key.mac(key.secret, Join(claims, ".")), '.');
    assert '.' !in RoleName(role);
    assert forall i :: 0 <= i < |parts| ==> '.' !in parts[i];
    SplitJoin(parts, '.');
    Signed(key, claims)
  }

  /** `jwt.verify(token, secret)` at clock `now`. A token is accepted only
      when it is four claim fields followed by their signature under `key`
      and `now` is before its `exp`; the claim set it yields is exactly those
      fields, and never carries `isAdmin`, since `Sign` does not write one. A
      well-signed token past its `exp` is reported expired. */
  function Verify(key: Key, token: string, now: nat): (d: Decoded)
    ensures d.Valid? || d.Expired? ==>
              var parts := Split(token, '.');
              && |parts| == 5
              && token == Signed(key, parts[..4])
              && ParseNat(parts[3]).Some?
              && (d.Valid? <==> now < ParseNat(parts[3]).value)
    ensures d.Valid? ==>
              var parts := Split(token, '.');
              && |parts| == 5
              && ParseNat(parts[0]) == Some(d.principal.id)
              && parts[1] == d.principal.role
              && ParseNat(parts[2]) == Some(d.principal.iat)
              && ParseNat(parts[3]) == Some(d.principal.exp)
              && !d.principal.isAdmin
  {
    var parts := Split(token, '.');
    if |parts| != 5 then Malformed
    else
      match (ParseNat(parts[0]), ParseNat(parts[2]), ParseNat(parts[3]))
      case (Some(id), Some(iat), Some(exp)) =>
        if parts[4] != Signature(key, Join(parts[..4], ".")) then BadSignature
        else
          JoinSplit(token, '.');
          assert parts == parts[..4] + [parts[4]];
          if exp <= now then Expired
          else Valid(Principal(id, parts[1], iat, exp, false))
      case _ => Malformed
  }

  /** Every dot-free claim layout whose id, iat and exp are numbers is
      accepted once signed, to exactly its fields, until `exp`. */
  lemma {:induction false} VerifySigned(key: Key, claims: seq<string>, now: nat)
    requires |claims| == 4
    requires forall i :: 0 <= i < 4 ==> '.' !in claims[i]
    requires ParseNat(claims[0]).Some? && ParseNat(claims[2]).Some? && ParseNat(claims[3]).Some?
    ensures Verify(key, Signed(key, claims), now)
      == if now < ParseNat(claims[3]).value
         then Valid(Principal(ParseNat(claims[0]).value, claims[1], ParseNat(claims[2]).value,
                              ParseNat(claims[3]).value, false))
         else Expired
  {
    var parts := claims + [Signature(key, Join(claims, "."))];
    DigitsHaveNo(key.mac(key.secret, Join(claims, ".")), '.');
    assert forall i :: 0 <= i < |parts| ==> '.' !in parts[i];
    SplitJoin(parts, '.');
    assert parts[..4] == claims;
  }

  lemma DigitsHaveNo(n: nat, c: char)
    requires !IsDigit(c)
    ensures c !in NatToString(n)
  {
  }

  /** A token signed at `iat` verifies, to exactly the id and role it was
      signed with plus that `iat` and its `exp`, while the clock is before `iat` plus seven days, and is
      reported expired from then on. */
  lemma SignVerify(key: Key, id: nat, role: Role, iat: nat, now: nat)
    ensures Verify(key, Sign(key, id, role, iat), now)
      == if now < iat + Lifetime then Valid(Payload(id, role, iat)) else Expired
  {
    var claims := Claims(id, role, iat);
    DigitsHaveNo(id, '.');
    DigitsHaveNo(iat, '.');
    DigitsHaveNo(iat + Lifetime, '.');
    assert '.' !in RoleName(role);
    ParseNatToString(id);
    ParseNatToString(iat);
    ParseNatToString(iat + Lifetime);
    VerifySigned(key, claims, now);
  }

  lemma JoinAvoids(parts: seq<string>, sep: string, c: char)
    requires c !in sep
    requires forall i :: 0 <= i < |parts| ==> c !in parts[i]
    ensures c !in Join(parts, sep)
  {
    if |parts| > 1 {
      JoinAvoids(parts[1..], sep, c);
    }
  }

  /** A signed token is a non-empty string with no space in it, so it
      survives being carried in a `Bearer` header. */
  lemma SignedTokenIsOneWord(key: Key, id: nat, role: Role, iat: nat)
    ensures Sign(key, id, role, iat) != ""
    ensures ' ' !in Sign(key, id, role, iat)
  {
    var claims := Claims(id, role, iat);
    var parts := claims + [Signature(key, Join(claims, "."))];
    DigitsHaveNo(id, ' ');
    DigitsHaveNo(iat, ' ');
    DigitsHaveNo(iat + Lifetime, ' ');
    DigitsHaveNo(key.mac(key.secret, Join(claims, ".")), ' ');
    assert ' ' !in RoleName(role);
    JoinAvoids(parts, ".", ' ');
    assert Join(parts, ".") == parts[0] + "." + Join(parts[1..], ".");
  }
}

=== FILE: uploads.dfy ===
/** The two pure pieces of the post-image upload configuration: which files
    are accepted, and the name a stored file gets. */
module Uploads {
  import opened Strings

  const ImagePrefix := "image/"

  /** `fileFilter`: only image MIME types are accepted. */
  predicate FileFilter(mimetype: string) {
    StartsWith(mimetype, ImagePrefix)
  }

  /** The filter accepts exactly the `image/...` types, whatever follows the
      slash. */
  lemma FileFilterIff(mimetype: string)
    ensures FileFilter(mimetype) <==> exists subtype :: mimetype == ImagePrefix + subtype
  {
    if FileFilter(mimetype) {
      assert mimetype == ImagePrefix + mimetype[|ImagePrefix|..];
    }
    if exists subtype :: mimetype == ImagePrefix + subtype {
      var subtype :| mimetype == ImagePrefix + subtype;
      assert mimetype[..|ImagePrefix|] == ImagePrefix;
    }
  }

  function Last(parts: seq<string>): string
    requires |parts| > 0
  {
    parts[|parts| - 1]
  }

  /** `originalname.split('.').pop()`: the text after the last dot, or the
      whole name when it has none. */
  function Extension(name: string): (ext: string)
    ensures '.' !in ext
    ensures |ext| <= |name| && name[|name| - |ext|..] == ext
    ensures '.' !in name ==> ext == name
    ensures '.' in name ==> |ext| < |name| && name[|name| - |ext| - 1] == '.'
  {
    var parts := Split(name, '.');
    JoinSplit(name, '.');
    if |parts| == 1 then
      parts[0]
    else
      var init := parts[..|parts| - 1];
      assert parts == init + [Last(parts)];
      JoinAppend(init, Last(parts), ".");
      assert name == Join(init, ".") + "." + Last(parts);
      Last(parts)
  }

  /** The extension is the last dot-separated piece of any name ending in
      `.ext`. */
  lemma ExtensionAfterDot(stem: string, ext: string)
    requires '.' !in ext
    ensures Extension(stem + "." + ext) == ext
  {
    SplitBeforeLast(stem, '.', ext);
  }

  /** The multer `filename`: `post-<Date.now()>.<ext>`; the clock reading is
      a parameter. */
  function StoredFilename(originalName: string, nowMillis: nat): (n: string)
    ensures StartsWith(n, "post-")
    ensures Extension(n) == Extension(originalName)
  {
    ExtensionAfterDot("post-" + NatToString(nowMillis), Extension(originalName));
    "post-" + NatToString(nowMillis) + "." + Extension(originalName)
  }
}

=== FILE: user_controller.dfy ===
/** The profile handlers (the principal's own row) and the admin handlers
    over all users. Every projection leaves the password digest out. */
module UserController {
  import opened Common
  import opened Tables
  import opened Schema
  import opened Http

  /** The columns `id, username, email, full_name, phone, address, role`. */
  function View(id: nat, u: User): (v: UserView)
    ensures v.id == id && v.username == u.username && v.email == u.email && v.role == u.role
    ensures v.fullName == u.fullName && v.phone == u.phone && v.address == u.address
  {
    UserView(id, u.username, u.email, u.fullName, u.phone, u.address, u.role)
  }

  /** The view forgets the password and nothing else: two rows have the same
      view exactly when they agree on every column but the password. */
  lemma ViewHidesOnlyPassword(id: nat, u: User, w: User)
    ensures View(id, u) == View(id, w) <==> u.(password := w.password) == w
  {
  }

  /** `getProfile`: the principal's own row, or 404. */
  function GetProfile(db: Db, user: Principal): (r: Response)
    ensures r.status == 200 <==> Get(db.users, user.id).Some?
    ensures r.status == 200 ==> r.body == UserBody(View(user.id, Get(db.users, user.id).value))
    ensures r.status != 200 ==> r == Fail(404, "User not found")
  {
    match Get(db.users, user.id)
    case None => Fail(404, "User not found")
    case Some(u) => Response(200, UserBody(View(user.id, u)))
  }

  /** The body of `updateProfile`; an absent field is written as NULL. */
  datatype ProfileEdit = ProfileEdit(fullName: Option<string>, phone: Option<string>, address: Option<string>)

  /** `updateProfile`: all three columns are overwritten, absent ones with
      NULL. The UPDATE matches no row only when the principal's row is gone. */
  function UpdateProfile(db: Db, user: Principal, e: ProfileEdit): (r: Reply)
    ensures Get(db.users, user.id).None? ==> r == Reply(Fail(404, "User not found or no changes made"), db)
    ensures r.response.status == 200 <==> Get(db.users, user.id).Some?
    ensures r.response.status == 200 ==>
              && r.response == Say(200, "Profile updated successfully")
              && r.db == db.(users := r.db.users)
              && (forall k: nat :: k != user.id ==> Get(r.db.users, k) == Get(db.users, k))
              && Get(r.db.users, user.id).Some?
              && var before := Get(db.users, user.id).value;
              && var after := Get(r.db.users, user.id).value;
              && after.fullName == e.fullName && after.phone == e.phone && after.address == e.address
              && after.(fullName := before.fullName, phone := before.phone, address := before.address) == before
  {
    match Get(db.users, user.id)
    case None => Reply(Fail(404, "User not found or no changes made"), db)
    case Some(u) =>
      var u' := u.(fullName := e.fullName, phone := e.phone, address := e.address);
      Reply(Say(200, "Profile updated successfully"), db.(users := Update(db.users, user.id, u')))
  }

  function AnyUser(): User -> bool {
    (u: User) => true
  }

  /** `getAllUsers`: every row without its password. The query has no ORDER
      BY; the model lists rows in primary-key order. */
  function GetAllUsers(db: Db): (r: Response)
    ensures r.status == 200 && r.body.UserListBody?
    ensures forall i :: 0 <= i < |r.body.users| ==>
              Get(db.users, r.body.users[i].id).Some?
              && r.body.users[i] == View(r.body.users[i].id, Get(db.users, r.body.users[i].id).value)
    ensures forall k: nat :: Get(db.users, k).Some? ==>
              exists i :: 0 <= i < |r.body.users| && r.body.users[i].id == k
    ensures forall i, j :: 0 <= i < j < |r.body.users| ==> r.body.users[i].id < r.body.users[j].id
  {
    var ids := Select(db.users, AnyUser());
    var rows := seq(|ids|, i requires 0 <= i < |ids| =>
      assert ids[i] in ids;
      View(ids[i], Get(db.users, ids[i]).value));
    forall i | 0 <= i < |rows|
      ensures rows[i].id == ids[i]
      ensures Get(db.users, rows[i].id).Some? && rows[i] == View(rows[i].id, Get(db.users, rows[i].id).value)
    {
      assert ids[i] in ids;
    }
    forall k: nat | Get(db.users, k).Some?
      ensures exists i :: 0 <= i < |rows| && rows[i].id == k
    {
      assert Matches(db.users, k, AnyUser());
      var i :| 0 <= i < |ids| && ids[i] == k;
      assert rows[i].id == k;
    }
    Response(200, UserListBody(rows))
  }

  /** `deleteUserAdmin`. The user's posts and comments are left as they
      are; they drop out of every joined listing. */
  function DeleteUserAdmin(db: Db, id: nat): (r: Reply)
    ensures r.response.status == 200 <==> Get(db.users, id).Some?
    ensures Get(db.users, id).None? ==> r == Reply(Fail(404, "User not found"), db)
    ensures r.response.status == 200 ==>
              && r.response == Say(200, "User deleted")
              && r.db == db.(users := r.db.users)
              && Get(r.db.users, id).None?
              && forall k: nat :: k != id ==> Get(r.db.users, k) == Get(db.users, k)
  {
    if Get(db.users, id).None? then Reply(Fail(404, "User not found"), db)
    else Reply(Say(200, "User deleted"), db.(users := Delete(db.users, id)))
  }

  /** `changeUserRole`: only `user` and `admin` are accepted, checked before
      the store is touched. */
  function ChangeUserRole(db: Db, id: nat, role: Option<string>): (r: Reply)
    ensures !Truthy(role) || ParseRole(role.value).None? ==> r == Reply(Fail(400, "Invalid role"), db)
    ensures role.Some? && ParseRole(role.value).Some? && Get(db.users, id).None? ==>
              r == Reply(Fail(404, "User not found or role unchanged"), db)
    ensures r.response.status == 200 <==>
              role.Some? && ParseRole(role.value).Some? && Get(db.users, id).Some?
    ensures r.response.status != 200 ==> r.db == db
    ensures r.response.status == 200 ==>
              && r.response == Say(200, "User role updated to " + role.value)
              && r.db == db.(users := r.db.users)
              && (forall k: nat :: k != id ==> Get(r.db.users, k) == Get(db.users, k))
              && Get(r.db.users, id).Some?
              && RoleName(Get(r.db.users, id).value.role) == role.value
              && Get(r.db.users, id).value.(role := Get(db.users, id).value.role) == Get(db.users, id).value
  {
    if !Truthy(role) || ParseRole(role.value).None? then Reply(Fail(400, "Invalid role"), db)
    else
      match Get(db.users, id)
      case None => Reply(Fail(404, "User not found or role unchanged"), db)
      case Some(u) =>
        var newRole := ParseRole(role.value).value;
        ParseRoleIffName(role.value, newRole);
        Reply(Say(200, "User role updated to " + role.value), db.(users := Update(db.users, id, u.(role := newRole))))
  }
}
